=== FILE: README.md ===
# xar-network core, modelled in Dafny

This project models the deterministic core of the xar network node and proves
properties of it. It covers seven pieces:

- **Normalize**: the fixed-point settlement arithmetic. Prices carry 8 implied
  decimals, so the quote amount owed is price × quantity / 10^8, truncated.
- **Orders**, **Settlement** and **Execution**: the per-block step of the spot
  exchange. The step does four things in order:
  - it scans for expired orders and cancels them;
  - it routes the surviving orders, highest id first, into one matcher per
    market;
  - it runs each matcher;
  - it settles every fill. A settlement credits the buyer base units plus a
    refund of the price difference, credits the seller truncated quote
    proceeds, and then reduces or deletes the order.
- **CsdtKeeper**: the collateralised-debt keeper. It covers:
  - ModifyCSDT, whose phase-1 checks run in source order and whose phase 2
    moves coins;
  - PartialSeizeCSDT and ReduceGlobalDebt;
  - the validation and price cut-off of GetCSDTs;
  - IsNominee.
- **OracleParams**: the oracle module's asset and oracle registry. It covers
  the lookups and the nominee-gated edits of the asset list.
- **OrderMsgs**: stateless validation, signers and routing of the post and
  cancel messages.
- **OrderQuerier**: the order-list query. It covers the filter and limit
  callback, the choice of iterator and the next-page cursor.
- **DenominationsGenesis**: validation of the denominations module's genesis
  token records.

Every operation is a pure function over immutable datatypes.

- **State:** the stores are maps, and the order store is iterated through its
  sorted keys.
- **Errors:** a failing operation returns an `Outcome.Failed` that carries the
  state as it stood at the failure, or an `Err`.
- **Parameters instead of code:**
  - the bank keeper's credit failures;
  - the order keeper's refusal to cancel and its return of a cancelled order's frozen coins;
  - the matching engine;
  - oracle prices;
  - the under-collateralisation test;
  - the collateral-ratio sort;
  - the oracle module's nominee test.

  The model does not define any of these; they are passed in as functions.

## Model

| member | source | states |
|---|---|---|
| Normalize.NormalizeQuoteQuantity | pkg/matcheng/normalize.go:30-47 | the amount is the floor of price × quantity / 10^8 (amount·10^8 ≤ p·q < (amount+1)·10^8); the "too small" error is reported exactly when the amount is 0, i.e. exactly when p·q < 10^8 |
| Normalize.DivisorIsPowerOfTen | pkg/matcheng/normalize.go:30-34 | the literal divisor equals 10^AssetDecimals with AssetDecimals = 8 |
| Normalize.FloorIsUnique | pkg/matcheng/normalize.go:40 | the floor bounds determine the truncated amount uniquely |
| Normalize.ZeroQuantity | pkg/matcheng/normalize.go:38-46 | a zero quantity gives amount 0 and the error |
| Normalize.ZeroPrice | pkg/matcheng/normalize.go:38-46 | a zero price gives amount 0 and the error |
| Normalize.WholeUnitsAreExact | pkg/matcheng/normalize.go:38-40 | a quantity of whole units (a multiple of 10^8) is settled exactly, with no rounding |
| Normalize.MonotoneInQuantity | pkg/matcheng/normalize.go:38-40 | for a fixed price the amount never decreases as the quantity grows |
| Normalize.MonotoneInPrice | pkg/matcheng/normalize.go:38-40 | for a fixed quantity the amount never decreases as the price grows |
| Orders.Ascending | execution/keeper.go:95-101 | the order store's forward iterator visits every stored id exactly once, in strictly increasing order |
| Orders.Descending | execution/keeper.go:112-116 | the reverse iterator visits every stored id exactly once, in strictly decreasing order |
| Orders.ReverseVisitCoversStore | execution/keeper.go:112-116 | the reverse iteration visits every stored order and nothing that is not stored |
| Orders.ReverseVisitDescends | execution/keeper.go:112-116 | with orders stored under their own ids, the reverse iteration visits them in strictly decreasing id order |
| Settlement.Credit | execution/keeper.go:173-176 | AddCoins either fails with the state untouched or adds exactly the amount to that one holding and changes nothing else |
| Settlement.BidRefund | execution/keeper.go:177-197 | a buyer is refunded only when the clearing price is below its bid, and then the refund is the truncated (bid − clearing) × filled |
| Settlement.AskProceeds | execution/keeper.go:199-203 | a seller's proceeds are the truncated clearing price × filled quantity |
| Settlement.ReduceOrder | execution/keeper.go:214-225 | the order is deleted exactly when nothing is left unfilled, and is otherwise re-stored with only its quantity changed; no other order changes |
| Settlement.ExecuteFill | execution/keeper.go:154-225 | a missing order or market fails before any credit; a buy credits the base quantity plus the refund, and a refund that truncates to zero is skipped without error; a sell whose proceeds truncate to zero panics and is never credited; a rejected base credit or non-zero proceeds fails the fill with the state untouched, and a rejected non-zero refund fails it after only the base credit, with the order neither reduced nor deleted; on success the markets are kept and the order is reduced or deleted |
| Settlement.SettleStopsAtFirstError | execution/keeper.go:137-144 | when settlement fails, some fill k is the first to fail: every fill before it settled, and the returned error and state are fill k's |
| Settlement.SettleDoneMeansEveryFillDone | execution/keeper.go:137-144 | when settlement completes, every fill settled in turn on the state its predecessors left |
| Execution.ExpiryBoundary | execution/keeper.go:96 | an order whose age equals its time in force is kept; one block older and it has expired |
| Execution.CollectExpired | execution/keeper.go:94-101 | the expiry scan collects exactly the stored ids whose orders have expired, in strictly increasing order |
| Execution.Cancel | execution/keeper.go:102-106 | cancelling a missing order or a refused one fails with the state untouched; otherwise exactly that order leaves the store, its frozen coins are returned, and the markets are kept |
| Execution.CancelAll | execution/keeper.go:102-106 | the markets are never touched; on success the store is the old store minus the collected ids, with every other order unchanged, and every id was accepted; on failure the error names one of the ids |
| Execution.FirstRejection | execution/keeper.go:102-106 | the position of the first id whose cancellation is refused: every earlier id is accepted |
| Execution.CancelAllStopsAtFirstRejection | execution/keeper.go:102-106 | for distinct stored ids the pass fails exactly at the first refused id, with that id's error, and the store has lost exactly the ids before it |
| Execution.CancelAllReleases | execution/keeper.go:102-106 | for distinct stored ids the balances after the pass are the old ones with the frozen coins of exactly the orders before the first refused id returned, in id order |
| Execution.FindMatcher | execution/keeper.go:242-253 | the lookup returns the first matcher for the market, or none when no matcher serves it |
| Execution.RouteAll | execution/keeper.go:110-116 | routing never creates more matchers than there are orders |
| Execution.RouteKeepsPerMarket | execution/keeper.go:112-116 | one getMatcherByMarket-and-enqueue step keeps the matchers one per market, each holding exactly its market's orders in visiting order |
| Execution.RouteOpensMatcher | execution/keeper.go:242-253 | an order whose market has no matcher yet opens a new matcher holding just that order, and the matchers stay one per market |
| Execution.RouteJoinsMatcher | execution/keeper.go:242-253 | an order whose market already has a matcher is appended to that matcher's queue only, and the matchers stay one per market |
| Execution.RouteAllIsPerMarket | execution/keeper.go:110-116 | after routing, every visited order's market has exactly one matcher, and its queue is that market's orders in visiting order |
| Execution.MarketQueueMembership | execution/keeper.go:112-116 | a market's queue holds each of that market's orders, and only that market's orders |
| Execution.MarketQueueHasAll | execution/keeper.go:112-116 | every visited order of a market is in that market's queue |
| Execution.MarketQueueOnlyMarket | execution/keeper.go:112-116 | every entry of a market's queue comes from a visited order of that market |
| Execution.MarketQueueDescends | execution/keeper.go:112-116 | when orders are visited in decreasing id order, each market's queue is in decreasing id order too |
| Execution.MatchAll | execution/keeper.go:118-135 | every result comes from some matcher's queue, every non-null Match result is kept, and markets without a cross produce no result |
| Execution.MatchAllKeepsEveryCross | execution/keeper.go:118-135 | the results are exactly the non-null Match results, one per crossing matcher, in matcher order |
| Execution.ExecuteAndCancelExpired | execution/keeper.go:90-152 | a completed block step leaves the markets unchanged, and every expired order was accepted for cancellation |
| Execution.EnqueuePhase | execution/keeper.go:94-116 | the orders that reach matching are exactly the stored orders that have not expired, so no expired order is enqueued; every one of them sits in the single matcher of its market, and each queue descends by id |
| Execution.QueuesDescend | execution/keeper.go:112-116 | every matcher's queue is in strictly decreasing id order |
| Execution.EveryOrderHasMatcher | execution/keeper.go:112-116 | after routing, every stored order's market has a matcher |
| Execution.RefusedExpiryAborts | execution/keeper.go:94-106 | if any expired order's cancellation is refused, the block step fails before matching with the first refused id's error, no fill is settled, and the only balance changes are the frozen coins returned by the cancellations before it |
| CsdtKeeper.Code | x/csdt/internal/keeper/keeper.go:49-185 | the two phase-1 balance checks and the supply keeper's failed stable deposit, burn and withdrawal report InsufficientCoins, and nothing else does; a panic is reported only as a panic |
| CsdtKeeper.Transfer | x/csdt/internal/keeper/keeper.go:144-155 | a transfer succeeds exactly when the sender holds enough; it moves exactly the amount and leaves every other balance alone |
| CsdtKeeper.Mint | x/csdt/internal/keeper/keeper.go:169-175 | minting adds exactly the amount to the module account and nothing else |
| CsdtKeeper.Burn | x/csdt/internal/keeper/keeper.go:157-168 | burning succeeds exactly when the module account holds enough, and removes exactly the amount |
| CsdtKeeper.Store | x/csdt/internal/keeper/keeper.go:186-190 | a position is stored when it holds collateral or debt and deleted when both are zero; other positions are untouched |
| CsdtKeeper.CheckModify | x/csdt/internal/keeper/keeper.go:49-139 | a collateral type that is not enabled is rejected first, and missing collateral second; a plan is produced exactly when the type is enabled, balances cover the change, the position stays non-negative and not under-collateralised, and global and per-type debt stay between zero and their limits |
| CsdtKeeper.MoveCoins | x/csdt/internal/keeper/keeper.go:141-185 | collateral moves between owner and module account by the change; the stable coin is minted to or burned from the owner by the debt change; an uncovered collateral transfer panics; the only other failure is an uncovered stable deposit when repaying debt, so the burn and the withdrawal never fail; nothing outside the owner, the module account and the two denominations changes |
| CsdtKeeper.Commit | x/csdt/internal/keeper/keeper.go:186-193 | the position is written or deleted, global debt and the type's total debt are set, and other collateral types keep their debt |
| CsdtKeeper.CommitPreservesWellFormed | x/csdt/internal/keeper/keeper.go:186-193 | writing a non-negative position and non-negative debt totals keeps the keeper well-formed |
| CsdtKeeper.ModifyCSDT | x/csdt/internal/keeper/keeper.go:44-196 | any phase-1 rejection returns the state unchanged; a disabled collateral type is rejected; a failure never changes positions or debt; success moves the global debt by the debt change |
| CsdtKeeper.ModifyAccounting | x/csdt/internal/keeper/keeper.go:84-193 | on success the position moves by exactly (collateral change, debt change) and is deleted exactly when both end at zero; global and per-type debt move by the debt change; no other position changes |
| CsdtKeeper.MovedBack | x/csdt/internal/keeper/keeper.go:84-193 | two opposite moves restore the positions, the global debt and every type's total debt |
| CsdtKeeper.ModifyPreservesWellFormed | x/csdt/internal/keeper/keeper.go:44-196 | whatever the outcome, every position stays stored under its own owner and denomination, with non-negative amounts and never empty |
| CsdtKeeper.ModifyMovesCoinsInStep | x/csdt/internal/keeper/keeper.go:84-193 | collateral is conserved between owner and module account, and the module account's holding moves in step with the position |
| CsdtKeeper.ModifySucceedsWhenChecksPass | x/csdt/internal/keeper/keeper.go:44-196 | with distinct collateral and stable denominations, the change succeeds whenever every phase-1 check passes on the inputs and a collateral withdrawal is covered by the module account |
| CsdtKeeper.ModifyMovesCoins | x/csdt/internal/keeper/keeper.go:141-185 | with distinct collateral and stable denominations, a successful change moves exactly the collateral change from owner to module account and issues exactly the debt change to the owner, and no other balance changes |
| CsdtKeeper.CoinsMovedBack | x/csdt/internal/keeper/keeper.go:141-185 | two opposite coin movements restore every balance of every account |
| CsdtKeeper.ModifyRoundTrip | x/csdt/internal/keeper/keeper.go:44-196 | a successful change (dc, dd) followed by a successful opposite change (−dc, −dd) restores every position, the global debt and every type's total debt |
| CsdtKeeper.ModifyRoundTripCoins | x/csdt/internal/keeper/keeper.go:141-185 | with distinct collateral and stable denominations, the same round trip restores every balance of every account |
| CsdtKeeper.PartialSeizeCSDT | x/csdt/internal/keeper/keeper.go:206-264 | it succeeds exactly when the position exists, its type has a parameter, it is under-collateralised, and the seize amounts are non-negative and covered by the position and its type's total debt, and otherwise fails with the state unchanged; on success it lowers the position and the type's total debt; global debt and coins never change |
| CsdtKeeper.PartialSeizePreservesWellFormed | x/csdt/internal/keeper/keeper.go:206-264 | seizing keeps the keeper well-formed, and seizing everything deletes the position |
| CsdtKeeper.ReduceGlobalDebt | x/csdt/internal/keeper/keeper.go:268-278 | it succeeds exactly for 0 ≤ amount ≤ global debt, subtracting exactly the amount; otherwise the state is unchanged and the error says which bound failed |
| CsdtKeeper.ReduceGlobalDebtPreservesWellFormed | x/csdt/internal/keeper/keeper.go:268-278 | reducing the global debt keeps the keeper well-formed |
| CsdtKeeper.ReduceGlobalDebtAdds | x/csdt/internal/keeper/keeper.go:268-278 | two successful reductions equal one reduction by their sum |
| CsdtKeeper.PrefixScan | x/csdt/internal/keeper/keeper.go:338-356 | the scan visits exactly the positions whose key starts with the denomination |
| CsdtKeeper.GetCSDTs | x/csdt/internal/keeper/keeper.go:338-378 | an unauthorised non-empty denomination is rejected, then a non-negative price without a denomination; without a price the result is the sorted scan; with one it is the longest sorted prefix still under the liquidation ratio at that price; when the sort permutes the scan, only scanned positions are listed, and without a price each of them |
| CsdtKeeper.GetCSDTsListsScan | x/csdt/internal/keeper/keeper.go:352-376 | when the sort permutes the scan, every listed position is stored under a key starting with the denomination, and without a price every such position is listed |
| CsdtKeeper.IsNominee | x/csdt/internal/keeper/keeper.go:437-446 | true exactly when the name is among the nominees |
| OracleParams.GetAsset | x/oracle/internal/keeper/params.go:156-167 | the first asset with the code, or none exactly when no asset has it |
| OracleParams.GetOracles | x/oracle/internal/keeper/params.go:36-44 | the first matching asset's oracle list, or asset-not-found exactly when there is none |
| OracleParams.GetOracle | x/oracle/internal/keeper/params.go:143-154 | fails for an unknown asset or for an address that is not among its oracles; otherwise returns the oracle with that address |
| OracleParams.AddOracle | x/oracle/internal/keeper/params.go:47-74 | rejects a non-nominee, then an existing oracle, then an unknown asset; on success it appends exactly this oracle to every matching asset and changes no other asset or the list's length |
| OracleParams.SetOracles | x/oracle/internal/keeper/params.go:77-98 | rejects a non-nominee or an unknown asset; otherwise it replaces only the matching assets' oracle lists, keeping order and length |
| OracleParams.SetAsset | x/oracle/internal/keeper/params.go:101-122 | rejects a non-nominee or an unknown asset; otherwise it replaces the matching records in place, keeping order and length |
| OracleParams.AddAsset | x/oracle/internal/keeper/params.go:125-140 | rejects a non-nominee or an existing code; otherwise it appends the asset at the end |
| OracleParams.FirstAssetUnderUpdate | x/oracle/internal/keeper/params.go:77-122 | an edit that keeps asset codes leaves every lookup by code pointing at the same position |
| OracleParams.AddOracleThenGetOracle | x/oracle/internal/keeper/params.go:47-74 | after AddOracle, GetOracle finds the new oracle |
| OracleParams.AddOracleTwiceFails | x/oracle/internal/keeper/params.go:47-74 | adding the same oracle again reports that it exists |
| OracleParams.SetOraclesThenGetOracles | x/oracle/internal/keeper/params.go:77-98 | after SetOracles, GetOracles reads back the list given |
| OracleParams.SetAssetThenGetAsset | x/oracle/internal/keeper/params.go:101-122 | after SetAsset with a record of the same code, GetAsset returns that record |
| OracleParams.AddAssetThenGetAsset | x/oracle/internal/keeper/params.go:125-140 | after AddAsset, GetAsset returns the new asset for its code and every other code's lookup is unchanged |
| OrderMsgs.CodeOf | x/order/types/msgs.go:58-113 | an undefined market and an empty owner are Unauthorized; a zero price or quantity is InvalidCoins |
| OrderMsgs.ValidateBasic | x/order/types/msgs.go:58-113 | a post is accepted exactly when the market is defined, the price and quantity are non-zero and 0 < time in force ≤ 600; a cancel exactly when the owner is non-empty and the order id is defined; the first failing check names the error |
| OrderMsgs.Metadata | x/order/types/msgs.go:50-121 | both messages route to "order" under the types "post" and "cancel", and the owner is the only signer |
| OrderMsgs.PostIgnoresOwnerAndDirection | x/order/types/msgs.go:58-75 | a post's validity does not depend on its owner or direction |
| OrderMsgs.TimeInForceBounds | x/order/types/msgs.go:68-73 | 1 and 600 blocks are accepted; 0 and 601 are rejected with their own errors |
| OrderQuerier.KeepIsInWindow | embedded/order/querier.go:52-91 | an order is kept exactly when its market and status are among those asked for (when any are) and its creation time lies in the inclusive window, a zero bound meaning none |
| OrderQuerier.Callback | embedded/order/querier.go:51-94 | a rejected order leaves the page alone and never stops iteration; a kept order is appended and becomes the last id, and iteration stops exactly when a limit is set and reached |
| OrderQuerier.PageSize | embedded/order/querier.go:94 | without a limit every kept order is taken; with a positive limit at most that many |
| OrderQuerier.Iterate | embedded/order/querier.go:47-98 | the collected orders are the kept orders cut at the page size, and the last id is the id of the last one |
| OrderQuerier.Visit | embedded/order/querier.go:109-118 | with no owner the store is walked in reverse, from the start id when it is defined; otherwise the owner's orders are walked |
| OrderQuerier.QueryList | embedded/order/querier.go:100-135 | the page is the collected orders; the cursor is the predecessor of the last id when the page is full, and the predecessor of the undefined id otherwise |
| OrderQuerier.PageIsPrefixOfKept | embedded/order/querier.go:92-94 | the page is a prefix of the kept orders, every order on it passes the filters, and it is short of them only when full |
| OrderQuerier.KeptIsWindow | embedded/order/querier.go:52-93 | the kept orders are exactly the visited orders inside the window |
| OrderQuerier.PageRespectsLimit | embedded/order/querier.go:94 | a positive limit bounds the page; without a limit the page is every kept order |
| DenominationsGenesis.Missing | x/denominations/genesis.go:17-28 | the first missing field, checked in the order owner, symbol, name, original symbol; none exactly when the record is valid |
| DenominationsGenesis.CheckRecords | x/denominations/genesis.go:15-31 | no error exactly when every record is valid; an error names the first invalid record and its first missing field |
| DenominationsGenesis.ValidateGenesis | x/denominations/genesis.go:15-31 | the nil error exactly when every token record has an owner, symbol, name and original symbol |
| DenominationsGenesis.NewGenesisState | x/denominations/genesis.go:33-35 | no token records, the nominees as given |
| DenominationsGenesis.DefaultGenesisState | x/denominations/genesis.go:37-42 | no token records and no nominees |
| DenominationsGenesis.FreshStatesValidate | x/denominations/genesis.go:15-42 | the default state and every new state validate |
| DenominationsGenesis.NomineesAreIgnored | x/denominations/genesis.go:15-31 | validation does not read the nominees |
| DenominationsGenesis.AppendRecord | x/denominations/genesis.go:16-30 | a later record cannot change an earlier error; after a valid prefix, a new record's own first missing field decides the result |

## Left out

- Events, logging and metrics are not modelled. These are the batch and fill publications, whose errors are ignored, the log lines, and the processing-time metrics, which use floating point.
- The matching engine is an abstract `matchFn` from a queue to an optional result. This covers matcher internals, clearing-price choice and the matcher pool. A matcher with no cross gives no result. The model assumes only that fills carry filled and unfilled quantities; it does not relate them to the order's prior quantity.
- Go's map iteration order over the matchers is not modelled. Matchers are kept in the order their markets are first visited, and matching and settlement use that order. No property depends on it beyond "results in some order".
- The market's pair lookup in ExecuteFill, which panics when missing, is not modelled: a registered market is assumed to have a pair.
- Settlement.ExecuteFill: the bank keeper's AddCoins failures (invalid denomination, overflow) are an abstract `rejects` policy, not the bank's own rules. The order store's Del and Set never fail in the model, so their errors are not modelled: once the credits are accepted, a fill always completes.
- The order keeper's Cancel is modelled as removing the order from the store and returning its frozen coins through an abstract `release`, or as a refusal decided by `rejects` that leaves the state untouched. How much is frozen and returned, and any partial effect of a refused cancel, are decided by the order keeper, which is not part of this model.
- Execution.CancelAll: its own ensures say nothing about balances. The returned frozen coins are stated by Execution.CancelAllReleases, for distinct stored ids, which is what the expiry pass collects.
- Execution.ExecuteAndCancelExpired: its own ensures state only that markets are kept and every expired id was accepted for cancellation. The ordering and routing properties are stated on the phases by Execution.EnqueuePhase, Execution.CancelAllStopsAtFirstRejection and Execution.RefusedExpiryAborts.
- Execution.MatchAll: its own ensures state membership in both directions but not count or order. Those are stated by Execution.MatchAllKeepsEveryCross.
- Execution.RouteAll: its own ensures bound only the number of matchers. The per-market property is Execution.RouteAllIsPerMarket.
- Orders.ReverseVisit: its own ensures give only the length. Coverage and order are Orders.ReverseVisitCoversStore and Orders.ReverseVisitDescends.
- Overflow panics of `sdk.Uint` (256 bits), `sdk.Int` (255 bits) and `sdk.Dec` are not modelled: the model's integers are unbounded, so Normalize.NormalizeQuoteQuantity does not panic for a price × quantity too large for `sdk.Dec`. Below that bound the 18-decimal `sdk.Dec` intermediate is exact for the division by 10^8, so the model truncates the integer product once; the floating-point computation of the divisor is replaced by the literal 100000000.
- An ask whose proceeds truncate to zero panics even when its filled quantity is 0. The model follows the code here, not a reading that exempts zero fills.
- CsdtKeeper: the oracle's current price, IsUnderCollateralized and the sort by collateral ratio are caller-supplied functions, and prices are integers instead of `sdk.Dec`.
- CsdtKeeper.MoveCoins: phase 2 of ModifyCSDT is not atomic in the source. A later supply-keeper failure returns after earlier transfers; the model returns the partially moved coins and relies on nothing about rollback. Supply-keeper failures other than insufficient balances (module permissions) are not modelled.
- CsdtKeeper: a missing collateral parameter, and a collateral transfer that fails after its balance was checked, are both the `Panic` error and not a crash.
- CsdtKeeper: GetGlobalDebt panics when the global debt was never set. The model always holds a global debt. A collateral state missing in ModifyCSDT counts as total debt 0.
- The CSDT and collateral-state store keys and codecs are not modelled. The store's prefix scan is modelled on the concatenation of denomination and owner. As in the source, a scan for denomination `d` also returns positions of any denomination that starts with `d`.
- AccumulatedFees, the governance denomination and the keeper constructor are not modelled.
- The oracle module's IsNominee, whose definition is not part of this model, is an abstract predicate.
- OracleParams.AddAsset checks the `code` argument, not the asset's own code. The source does the same, so an asset whose code differs from `code` can duplicate an existing code. OracleParams.AddAssetThenGetAsset assumes the two agree.
- OrderMsgs.MaxTimeInForce is 600, the limit the post validator's error reports. Its defining constant is outside the modelled files.
- OrderMsgs: GetSignBytes and the message codec are not modelled.
- OrderQuerier.QueryList: the entity id's predecessor (`Dec`) is a caller-supplied function. Request unmarshalling and JSON output, and their errors, are not modelled. Creation times are integers in the unit the request's bounds use, nanoseconds.
- DenominationsGenesis: token fields other than the four that validation reads are omitted. InitGenesis and ExportGenesis are store iteration and are not modelled. The error text is replaced by the record index and the missing field.

=== FILE: common.dfy ===
/** Shared wrappers: optional values, fallible results, and the outcome of a
    state transition that may stop part-way. */
module Common {

  datatype Option<+T> = None | Some(value: T)

  /** A computation that either yields a value or reports an error. */
  datatype Result<+T, +E> = Ok(value: T) | Err(error: E)

  /** A state transition that either completes, or stops with an error.
      A failed transition still carries the state reached when it stopped:
      writes made before the error are not rolled back by the code modelled
      here (any rollback belongs to the surrounding transaction). */
  datatype Outcome<+S, +E> = Done(state: S) | Failed(state: S, error: E)

  type Address = string
  type Denom = string

  /** Keeps the elements of `s` that satisfy `p`, in order. */
  function Filter<T(!new)>(s: seq<T>, p: T -> bool): (r: seq<T>)
    ensures |r| <= |s|
    ensures forall x :: x in r <==> x in s && p(x)
  {
    if |s| == 0 then []
    else (if p(s[0]) then [s[0]] else []) + Filter(s[1..], p)
  }

  lemma {:induction false} FilterAppend<T(!new)>(a: seq<T>, b: seq<T>, p: T -> bool)
    ensures Filter(a + b, p) == Filter(a, p) + Filter(b, p)
  {
    if |a| == 0 {
      assert a + b == b;
    } else {
      assert (a + b)[0] == a[0];
      assert (a + b)[1..] == a[1..] + b;
      FilterAppend(a[1..], b, p);
    }
  }

  /** The reversal of a sequence. */
  function Reverse<T>(s: seq<T>): (r: seq<T>)
    ensures |r| == |s|
    ensures forall i :: 0 <= i < |s| ==> r[i] == s[|s| - 1 - i]
  {
    if |s| == 0 then [] else Reverse(s[1..]) + [s[0]]
  }
}

=== FILE: csdt.dfy ===
/** The collateralised-debt (CSDT) keeper: opening, changing and closing a
    position, seizing part of an under-collateralised one, reducing the global
    debt counter, listing positions, and the nominee check.

    Amounts are whole coin units of one denomination each (a position holds
    collateral of its own denomination and debt in the stable denomination).
    The bank and supply keepers are a balance map with concrete transfer, mint
    and burn; the oracle's price, the under-collateralisation test and the sort
    by collateral ratio are functions supplied by the caller. */
module CsdtKeeper {
  import opened Common

  datatype Account = User(address: Address) | ModuleAccount

  /** Balances held by users and by the module account, per denomination. */
  type Coins = map<(Account, Denom), nat>

  datatype Csdt = Csdt(owner: Address, collateralDenom: Denom, collateralAmount: int, debt: int)

  datatype CollateralParam = CollateralParam(denom: Denom, liquidationRatio: int, debtLimit: int)

  /** Module parameters; the limits are amounts of the stable denomination. */
  datatype Params = Params(globalDebtLimit: int, collateralParams: seq<CollateralParam>, nominees: seq<string>)

  /** What the keeper consults but this model does not define. */
  datatype Env = Env(
    stableDenom: Denom,
    currentPrice: Denom -> int,
    isUnderCollateralized: (Csdt, int, int) -> bool,
    // the scanned positions in collateral-ratio order; the contracts that
    // need it to be a permutation of its input say so (IsOrdering)
    byCollateralRatio: set<Csdt> -> seq<Csdt>)

  datatype Keeper = Keeper(
    csdts: map<(Address, Denom), Csdt>,
    globalDebt: int,
    collateralStates: map<Denom, int>,   // total debt per collateral denomination
    coins: Coins)

  datatype ErrorCode = Internal | InsufficientCoins | Panicked

  datatype CsdtError =
    // ModifyCSDT, phase 1
    | CollateralNotEnabled
    | NotEnoughCollateral
    | NotEnoughStable
    | CollateralOverdrawn
    | DebtOverpaid
    | BelowLiquidationRatio
    | GlobalDebtNegative
    | OverGlobalDebtLimit
    | CollateralDebtNegative
    | OverCollateralDebtLimit
    // ModifyCSDT, phase 2: the supply keeper's own errors, each a shortfall
    // of the sending account. The burn and the withdrawal cannot fail here,
    // since the module account always holds what it was just sent or minted
    // (MoveCoins says so); they are kept because the source returns them.
    | StableDepositFailed
    | StableBurnFailed
    | StableWithdrawFailed
    // PartialSeizeCSDT
    | CsdtNotFound
    | NotUnderLiquidationRatio
    | NegativeSeizeCollateral
    | SeizeTooMuchCollateral
    | NegativeSeizeDebt
    | SeizeTooMuchDebt
    | CollateralStateNotFound
    | CollateralStateNegative
    // ReduceGlobalDebt
    | NegativeReduction
    | ReductionTooLarge
    // GetCSDTs
    | DenomNotAuthorized
    | PriceWithoutDenom
    // a panic: a collateral transfer that was checked beforehand, or a
    // collateral parameter that is missing
    | Panic

  /** The SDK code each error reports. The phase-1 balance checks and the
      supply keeper's failed sends and burn are all insufficient coins. */
  function Code(e: CsdtError): (c: ErrorCode)
    ensures c == InsufficientCoins <==>
      e in {NotEnoughCollateral, NotEnoughStable, StableDepositFailed, StableBurnFailed, StableWithdrawFailed}
    ensures c == Panicked <==> e == Panic
  {
    match e
    case NotEnoughCollateral => InsufficientCoins
    case NotEnoughStable => InsufficientCoins
    case StableDepositFailed => InsufficientCoins
    case StableBurnFailed => InsufficientCoins
    case StableWithdrawFailed => InsufficientCoins
    case Panic => Panicked
    case _ => Internal
  }

  // ---------- Bank and supply ----------

  function Bal(coins: Coins, a: Account, d: Denom): nat
  {
    if (a, d) in coins then coins[(a, d)] else 0
  }

  /** A transfer of `amount` of `d`; it fails when the sender holds too little. */
  function Transfer(coins: Coins, from: Account, to: Account, d: Denom, amount: nat): (r: Option<Coins>)
    requires from != to
    ensures r.Some? <==> Bal(coins, from, d) >= amount
    ensures r.Some? ==> Bal(r.value, from, d) == Bal(coins, from, d) - amount
    ensures r.Some? ==> Bal(r.value, to, d) == Bal(coins, to, d) + amount
    ensures r.Some? ==> forall a, e :: (a, e) != (from, d) && (a, e) != (to, d) ==> Bal(r.value, a, e) == Bal(coins, a, e)
  {
    if Bal(coins, from, d) < amount then None
    else Some(coins[(from, d) := Bal(coins, from, d) - amount][(to, d) := Bal(coins, to, d) + amount])
  }

  /** New coins of `d` for the module account. */
  function Mint(coins: Coins, d: Denom, amount: nat): (r: Coins)
    ensures Bal(r, ModuleAccount, d) == Bal(coins, ModuleAccount, d) + amount
    ensures forall a, e :: (a, e) != (ModuleAccount, d) ==> Bal(r, a, e) == Bal(coins, a, e)
  {
    coins[(ModuleAccount, d) := Bal(coins, ModuleAccount, d) + amount]
  }

  /** Coins of `d` destroyed from the module account. */
  function Burn(coins: Coins, d: Denom, amount: nat): (r: Option<Coins>)
    ensures r.Some? <==> Bal(coins, ModuleAccount, d) >= amount
    ensures r.Some? ==> Bal(r.value, ModuleAccount, d) == Bal(coins, ModuleAccount, d) - amount
    ensures r.Some? ==> forall a, e :: (a, e) != (ModuleAccount, d) ==> Bal(r.value, a, e) == Bal(coins, a, e)
  {
    if Bal(coins, ModuleAccount, d) < amount then None
    else Some(coins[(ModuleAccount, d) := Bal(coins, ModuleAccount, d) - amount])
  }

  // ---------- Parameters and stored state ----------

  /** The first collateral parameter for `d`. */
  function FindCollateralParam(ps: seq<CollateralParam>, d: Denom): (r: Option<CollateralParam>)
    ensures r.Some? ==> r.value in ps && r.value.denom == d
    ensures r.None? <==> forall i :: 0 <= i < |ps| ==> ps[i].denom != d
  {
    if |ps| == 0 then None
    else if ps[0].denom == d then Some(ps[0])
    else FindCollateralParam(ps[1..], d)
  }

  predicate IsCollateralPresent(params: Params, d: Denom)
  {
    FindCollateralParam(params.collateralParams, d).Some?
  }

  /** The stored position, or a fresh empty one owned by `owner`. */
  function CurrentOrEmpty(k: Keeper, owner: Address, d: Denom): (c: Csdt)
    ensures (owner, d) in k.csdts ==> c == k.csdts[(owner, d)]
    ensures (owner, d) !in k.csdts ==> c == Csdt(owner, d, 0, 0)
  {
    if (owner, d) in k.csdts then k.csdts[(owner, d)] else Csdt(owner, d, 0, 0)
  }

  function TotalDebt(k: Keeper, d: Denom): int
  {
    if d in k.collateralStates then k.collateralStates[d] else 0
  }

  predicate IsEmpty(c: Csdt)
  {
    c.collateralAmount == 0 && c.debt == 0
  }

  /** SetCSDT for a non-empty position, DeleteCSDT for an empty one; both are
      keyed by the position's own owner and denomination. */
  function Store(csdts: map<(Address, Denom), Csdt>, c: Csdt): (r: map<(Address, Denom), Csdt>)
    ensures (c.owner, c.collateralDenom) in r <==> !IsEmpty(c)
    ensures !IsEmpty(c) ==> r[(c.owner, c.collateralDenom)] == c
    ensures forall key :: key != (c.owner, c.collateralDenom) ==> (key in r <==> key in csdts)
    ensures forall key :: key != (c.owner, c.collateralDenom) && key in r ==> r[key] == csdts[key]
  {
    if IsEmpty(c) then csdts - {(c.owner, c.collateralDenom)}
    else csdts[(c.owner, c.collateralDenom) := c]
  }

  /** The keeper's invariant: each position is stored under its own owner and
      denomination, is non-empty, and holds no negative amount; the debt
      counters are not negative. */
  ghost predicate WellFormed(k: Keeper)
  {
    && (forall key :: key in k.csdts ==> k.csdts[key].owner == key.0 && k.csdts[key].collateralDenom == key.1)
    && (forall key :: key in k.csdts ==> k.csdts[key].collateralAmount >= 0 && k.csdts[key].debt >= 0)
    && (forall key :: key in k.csdts ==> !IsEmpty(k.csdts[key]))
    && k.globalDebt >= 0
    && (forall d :: d in k.collateralStates ==> k.collateralStates[d] >= 0)
  }

  // ---------- ModifyCSDT ----------

  /** What phase 1 of ModifyCSDT decides to write: the changed position, the
      new global debt and the collateral type's new total debt. */
  datatype Plan = Plan(csdt: Csdt, globalDebt: int, totalDebt: int)

  /** Every phase-1 check of ModifyCSDT passes: the collateral type is
      enabled, the owner covers a deposit and a repayment, the changed
      position stays non-negative and not under-collateralised, and the global
      and per-type debt stay between zero and their limits. */
  ghost predicate ModifyChecksPass(k: Keeper, params: Params, env: Env, owner: Address, d: Denom, dc: int, dd: int)
  {
    var cur := CurrentOrEmpty(k, owner, d);
    var param := FindCollateralParam(params.collateralParams, cur.collateralDenom);
    var c := cur.(collateralAmount := cur.collateralAmount + dc, debt := cur.debt + dd);
    && IsCollateralPresent(params, d)
    && (dc > 0 ==> Bal(k.coins, User(owner), d) >= dc)
    && (dd < 0 ==> Bal(k.coins, User(owner), env.stableDenom) >= -dd)
    && c.collateralAmount >= 0
    && c.debt >= 0
    && param.Some?
    && !env.isUnderCollateralized(c, env.currentPrice(cur.collateralDenom), param.value.liquidationRatio)
    && 0 <= k.globalDebt + dd <= params.globalDebtLimit
    && 0 <= TotalDebt(k, cur.collateralDenom) + dd <= param.value.debtLimit
  }

  /** Phase 1 of ModifyCSDT: every check, in the order the keeper makes them,
      on state read but not yet written. */
  function CheckModify(k: Keeper, params: Params, env: Env, owner: Address, d: Denom, dc: int, dd: int): (r: Result<Plan, CsdtError>)
    ensures !IsCollateralPresent(params, d) ==> r == Err(CollateralNotEnabled)
    ensures IsCollateralPresent(params, d) && dc > 0 && Bal(k.coins, User(owner), d) < dc ==> r == Err(NotEnoughCollateral)
    ensures r.Ok? ==> (
      var cur := CurrentOrEmpty(k, owner, d);
      var param := FindCollateralParam(params.collateralParams, cur.collateralDenom);
      && IsCollateralPresent(params, d)
      && (dc > 0 ==> Bal(k.coins, User(owner), d) >= dc)
      && (dd < 0 ==> Bal(k.coins, User(owner), env.stableDenom) >= -dd)
      && r.value.csdt == cur.(collateralAmount := cur.collateralAmount + dc, debt := cur.debt + dd)
      && r.value.csdt.collateralAmount >= 0
      && r.value.csdt.debt >= 0
      && param.Some?
      && !env.isUnderCollateralized(r.value.csdt, env.currentPrice(cur.collateralDenom), param.value.liquidationRatio)
      && r.value.globalDebt == k.globalDebt + dd
      && 0 <= r.value.globalDebt <= params.globalDebtLimit
      && r.value.totalDebt == TotalDebt(k, cur.collateralDenom) + dd
      && 0 <= r.value.totalDebt <= param.value.debtLimit)
    // a plan is produced exactly when every check passes
    ensures r.Ok? <==> ModifyChecksPass(k, params, env, owner, d, dc, dd)
  {
    if !IsCollateralPresent(params, d) then Err(CollateralNotEnabled)
    else if dc > 0 && Bal(k.coins, User(owner), d) < dc then Err(NotEnoughCollateral)
    else if dd < 0 && Bal(k.coins, User(owner), env.stableDenom) < -dd then Err(NotEnoughStable)
    else
      var cur := CurrentOrEmpty(k, owner, d);
      var c := cur.(collateralAmount := cur.collateralAmount + dc, debt := cur.debt + dd);
      if c.collateralAmount < 0 then Err(CollateralOverdrawn)
      else if c.debt < 0 then Err(DebtOverpaid)
      else match FindCollateralParam(params.collateralParams, c.collateralDenom)
        case None => Err(Panic)
        case Some(param) =>
          if env.isUnderCollateralized(c, env.currentPrice(c.collateralDenom), param.liquidationRatio) then Err(BelowLiquidationRatio)
          else
            var g := k.globalDebt + dd;
            if g < 0 then Err(GlobalDebtNegative)
            else if g > params.globalDebtLimit then Err(OverGlobalDebtLimit)
            else
              var t := TotalDebt(k, c.collateralDenom) + dd;
              if t < 0 then Err(CollateralDebtNegative)
              else if t > param.debtLimit then Err(OverCollateralDebtLimit)
              else Ok(Plan(c, g, t))
  }

  /** Phase 2's coin movements: collateral between owner and module account
      (a failure here panics), then stable coins burned from or minted to the
      owner (a failure here is returned, after the moves already made). */
  function MoveCoins(coins: Coins, stable: Denom, owner: Address, d: Denom, dc: int, dd: int): (r: Outcome<Coins, CsdtError>)
    // the burn and the withdrawal never fail: only the collateral transfer
    // (a panic) or the owner's stable deposit can
    ensures r.Failed? ==> r.error in {Panic, StableDepositFailed}
    ensures r.Failed? && r.error == StableDepositFailed ==> dd < 0
    ensures dc < 0 && Bal(coins, ModuleAccount, d) < -dc ==> r == Failed(coins, Panic)
    ensures dc >= 0 && Bal(coins, User(owner), d) < dc ==> r == Failed(coins, Panic)
    ensures d != stable && r.Done? ==> (
      && Bal(r.state, User(owner), d) == Bal(coins, User(owner), d) - dc
      && Bal(r.state, ModuleAccount, d) == Bal(coins, ModuleAccount, d) + dc
      && Bal(r.state, User(owner), stable) == Bal(coins, User(owner), stable) + dd
      && Bal(r.state, ModuleAccount, stable) == Bal(coins, ModuleAccount, stable))
    ensures r.Done? ==> forall a, e :: e != d && e != stable ==> Bal(r.state, a, e) == Bal(coins, a, e)
    ensures r.Done? ==> forall a, e :: a != User(owner) && a != ModuleAccount ==> Bal(r.state, a, e) == Bal(coins, a, e)
    // with the collateral and stable denominations distinct, phase 2 fails
    // only when the source of one of its transfers holds too little
    ensures d != stable ==> (r.Done? <==>
      && (dc < 0 ==> Bal(coins, ModuleAccount, d) >= -dc)
      && (dc >= 0 ==> Bal(coins, User(owner), d) >= dc)
      && (dd < 0 ==> Bal(coins, User(owner), stable) >= -dd))
  {
    var afterCollateral :=
      if dc < 0 then Transfer(coins, ModuleAccount, User(owner), d, -dc)
      else Transfer(coins, User(owner), ModuleAccount, d, dc);
    match afterCollateral
    case None => Failed(coins, Panic)
    case Some(c1) =>
      if dd < 0 then
        match Transfer(c1, User(owner), ModuleAccount, stable, -dd)
        case None => Failed(c1, StableDepositFailed)
        case Some(c2) =>
          match Burn(c2, stable, -dd)
          case None => Failed(c2, StableBurnFailed)
          case Some(c3) => Done(c3)
      else
        var c2 := Mint(c1, stable, dd);
        match Transfer(c2, ModuleAccount, User(owner), stable, dd)
        case None => Failed(c2, StableWithdrawFailed)
        case Some(c3) => Done(c3)
  }

  /** The final writes of ModifyCSDT: the position (deleted when empty), the
      global debt and the collateral type's total debt. */
  function Commit(k: Keeper, plan: Plan): (r: Keeper)
    ensures r.coins == k.coins
    ensures r.globalDebt == plan.globalDebt
    ensures r.csdts == Store(k.csdts, plan.csdt)
    ensures TotalDebt(r, plan.csdt.collateralDenom) == plan.totalDebt
    ensures forall e :: e != plan.csdt.collateralDenom ==> TotalDebt(r, e) == TotalDebt(k, e)
    ensures forall e :: e in r.collateralStates <==> e in k.collateralStates || e == plan.csdt.collateralDenom
  {
    Keeper(Store(k.csdts, plan.csdt), plan.globalDebt, k.collateralStates[plan.csdt.collateralDenom := plan.totalDebt], k.coins)
  }

  /** ModifyCSDT: creates, changes or deletes the position of `owner` in
      collateral `d` by `dc` collateral and `dd` debt. A phase-1 rejection
      leaves every part of the state as it was. */
  function ModifyCSDT(k: Keeper, params: Params, env: Env, owner: Address, d: Denom, dc: int, dd: int): (r: Outcome<Keeper, CsdtError>)
    ensures CheckModify(k, params, env, owner, d, dc, dd).Err? ==>
      r == Failed(k, CheckModify(k, params, env, owner, d, dc, dd).error)
    ensures !IsCollateralPresent(params, d) ==> r == Failed(k, CollateralNotEnabled)
    ensures r.Failed? ==> r.state.csdts == k.csdts && r.state.globalDebt == k.globalDebt && r.state.collateralStates == k.collateralStates
    ensures r.Done? ==> CheckModify(k, params, env, owner, d, dc, dd).Ok?
    ensures r.Done? ==> r.state.globalDebt == k.globalDebt + dd
  {
    match CheckModify(k, params, env, owner, d, dc, dd)
    case Err(e) => Failed(k, e)
    case Ok(plan) =>
      match MoveCoins(k.coins, env.stableDenom, owner, d, dc, dd)
      case Failed(c, e) => Failed(k.(coins := c), e)
      case Done(c) => Done(Commit(k.(coins := c), plan))
  }

  /** `r` is `k` with the position of (`owner`, `d`) moved by exactly (dc, dd)
      and deleted exactly when both amounts end at zero, the global and
      per-collateral debt moved by dd, and no other position or collateral
      state touched. */
  ghost predicate Moved(k: Keeper, r: Keeper, owner: Address, d: Denom, dc: int, dd: int)
  {
    var cur := CurrentOrEmpty(k, owner, d);
    && ((owner, d) in r.csdts <==> cur.collateralAmount + dc != 0 || cur.debt + dd != 0)
    && ((owner, d) in r.csdts ==> r.csdts[(owner, d)] == Csdt(owner, d, cur.collateralAmount + dc, cur.debt + dd))
    && (forall key :: key != (owner, d) ==> (key in r.csdts <==> key in k.csdts))
    && (forall key :: key != (owner, d) && key in r.csdts ==> r.csdts[key] == k.csdts[key])
    && r.globalDebt == k.globalDebt + dd
    && TotalDebt(r, d) == TotalDebt(k, d) + dd
    && (forall e :: e != d ==> TotalDebt(r, e) == TotalDebt(k, e))
  }

  /** On a well-formed keeper, a successful ModifyCSDT is exactly that move. */
  lemma ModifyAccounting(k: Keeper, params: Params, env: Env, owner: Address, d: Denom, dc: int, dd: int)
    requires WellFormed(k)
    requires ModifyCSDT(k, params, env, owner, d, dc, dd).Done?
    ensures Moved(k, ModifyCSDT(k, params, env, owner, d, dc, dd).state, owner, d, dc, dd)
  {
    var cur := CurrentOrEmpty(k, owner, d);
    assert cur.owner == owner && cur.collateralDenom == d;
  }

  /** A move followed by the opposite move restores the positions and the
      debt counters. */
  lemma MovedBack(k: Keeper, k1: Keeper, r: Keeper, owner: Address, d: Denom, dc: int, dd: int)
    requires WellFormed(k)
    requires Moved(k, k1, owner, d, dc, dd)
    requires Moved(k1, r, owner, d, -dc, -dd)
    ensures r.csdts == k.csdts
    ensures r.globalDebt == k.globalDebt
    ensures forall e :: TotalDebt(r, e) == TotalDebt(k, e)
  {
    var cur := CurrentOrEmpty(k, owner, d);
    var cur1 := CurrentOrEmpty(k1, owner, d);
    assert cur1.collateralAmount == cur.collateralAmount + dc && cur1.debt == cur.debt + dd;
    assert (owner, d) in k.csdts ==> k.csdts[(owner, d)] == Csdt(owner, d, cur.collateralAmount, cur.debt);
    assert (owner, d) in r.csdts <==> (owner, d) in k.csdts;
  }

  /** Writing a non-negative plan keeps the keeper well-formed. */
  lemma CommitPreservesWellFormed(k: Keeper, plan: Plan)
    requires WellFormed(k)
    requires plan.csdt.collateralAmount >= 0 && plan.csdt.debt >= 0
    requires plan.globalDebt >= 0 && plan.totalDebt >= 0
    ensures WellFormed(Commit(k, plan))
  {
  }

  /** ModifyCSDT keeps the keeper well-formed, whatever its outcome. */
  lemma ModifyPreservesWellFormed(k: Keeper, params: Params, env: Env, owner: Address, d: Denom, dc: int, dd: int)
    requires WellFormed(k)
    ensures WellFormed(ModifyCSDT(k, params, env, owner, d, dc, dd).state)
  {
    var r := ModifyCSDT(k, params, env, owner, d, dc, dd);
    if r.Done? {
      var plan := CheckModify(k, params, env, owner, d, dc, dd).value;
      var coins := MoveCoins(k.coins, env.stableDenom, owner, d, dc, dd).state;
      assert r.state == Commit(k.(coins := coins), plan);
      CommitPreservesWellFormed(k.(coins := coins), plan);
    }
  }

  /** With distinct collateral and stable denominations, the owner's
      collateral that leaves the account is exactly what enters the module
      account and the position, and the stable coins the owner receives are
      exactly the debt taken on. */
  lemma ModifyMovesCoinsInStep(k: Keeper, params: Params, env: Env, owner: Address, d: Denom, dc: int, dd: int)
    requires WellFormed(k)
    requires d != env.stableDenom
    requires ModifyCSDT(k, params, env, owner, d, dc, dd).Done?
    ensures var r := ModifyCSDT(k, params, env, owner, d, dc, dd).state;
      && Bal(r.coins, User(owner), d) + Bal(r.coins, ModuleAccount, d) == Bal(k.coins, User(owner), d) + Bal(k.coins, ModuleAccount, d)
      && Bal(r.coins, ModuleAccount, d) - CurrentOrEmpty(r, owner, d).collateralAmount ==
         Bal(k.coins, ModuleAccount, d) - CurrentOrEmpty(k, owner, d).collateralAmount
      && Bal(r.coins, User(owner), env.stableDenom) - CurrentOrEmpty(r, owner, d).debt ==
         Bal(k.coins, User(owner), env.stableDenom) - CurrentOrEmpty(k, owner, d).debt
  {
    ModifyAccounting(k, params, env, owner, d, dc, dd);
  }

  /** When every phase-1 check passes and the transfers are covered, with the
      collateral and stable denominations distinct, ModifyCSDT succeeds. */
  lemma ModifySucceedsWhenChecksPass(k: Keeper, params: Params, env: Env, owner: Address, d: Denom, dc: int, dd: int)
    requires d != env.stableDenom
    requires ModifyChecksPass(k, params, env, owner, d, dc, dd)
    requires dc < 0 ==> Bal(k.coins, ModuleAccount, d) >= -dc
    ensures ModifyCSDT(k, params, env, owner, d, dc, dd).Done?
  {
  }

  /** The coins a successful ModifyCSDT leaves are those its phase 2 moved. */
  lemma ModifyCoins(k: Keeper, params: Params, env: Env, owner: Address, d: Denom, dc: int, dd: int)
    requires ModifyCSDT(k, params, env, owner, d, dc, dd).Done?
    ensures MoveCoins(k.coins, env.stableDenom, owner, d, dc, dd).Done?
    ensures ModifyCSDT(k, params, env, owner, d, dc, dd).state.coins == MoveCoins(k.coins, env.stableDenom, owner, d, dc, dd).state
  {
  }

  /** Undoing a successful change (dc, dd) with the opposite change
      (dc2, dd2) = (-dc, -dd) restores every position, the global debt and
      every collateral type's total debt. */
  lemma ModifyRoundTrip(k: Keeper, k1: Keeper, r: Keeper, params: Params, env: Env, owner: Address, d: Denom, dc: int, dd: int, dc2: int, dd2: int)
    requires WellFormed(k)
    requires dc2 == -dc && dd2 == -dd
    requires ModifyCSDT(k, params, env, owner, d, dc, dd) == Done(k1)
    requires ModifyCSDT(k1, params, env, owner, d, dc2, dd2) == Done(r)
    ensures r.csdts == k.csdts
    ensures r.globalDebt == k.globalDebt
    ensures forall e :: TotalDebt(r, e) == TotalDebt(k, e)
  {
    ModifyAccounting(k, params, env, owner, d, dc, dd);
    ModifyPreservesWellFormed(k, params, env, owner, d, dc, dd);
    ModifyAccounting(k1, params, env, owner, d, dc2, dd2);
    MovedBack(k, k1, r, owner, d, dc, dd);
  }

  /** `after` is `before` with `dc` collateral moved from the owner to the
      module account and `dd` stable coins issued to the owner (negative
      amounts move the other way), and no other balance changed. */
  ghost predicate CoinsMoved(before: Coins, after: Coins, owner: Address, d: Denom, stable: Denom, dc: int, dd: int)
  {
    && Bal(after, User(owner), d) == Bal(before, User(owner), d) - dc
    && Bal(after, ModuleAccount, d) == Bal(before, ModuleAccount, d) + dc
    && Bal(after, User(owner), stable) == Bal(before, User(owner), stable) + dd
    && Bal(after, ModuleAccount, stable) == Bal(before, ModuleAccount, stable)
    && (forall a, e :: e != d && e != stable ==> Bal(after, a, e) == Bal(before, a, e))
    && (forall a, e :: a != User(owner) && a != ModuleAccount ==> Bal(after, a, e) == Bal(before, a, e))
  }

  /** With distinct collateral and stable denominations, a successful
      ModifyCSDT moves exactly (dc, dd) between the owner and the module. */
  lemma ModifyMovesCoins(k: Keeper, k1: Keeper, params: Params, env: Env, owner: Address, d: Denom, dc: int, dd: int)
    requires d != env.stableDenom
    requires ModifyCSDT(k, params, env, owner, d, dc, dd) == Done(k1)
    ensures CoinsMoved(k.coins, k1.coins, owner, d, env.stableDenom, dc, dd)
  {
    ModifyCoins(k, params, env, owner, d, dc, dd);
  }

  /** Every account holds the same amount of every denomination. */
  ghost predicate SameBalances(c: Coins, c': Coins)
  {
    forall a, e :: Bal(c', a, e) == Bal(c, a, e)
  }

  lemma CoinsMovedBack(c: Coins, c1: Coins, c2: Coins, owner: Address, d: Denom, stable: Denom, dc: int, dd: int)
    requires d != stable
    requires CoinsMoved(c, c1, owner, d, stable, dc, dd)
    requires CoinsMoved(c1, c2, owner, d, stable, -dc, -dd)
    ensures SameBalances(c, c2)
  {
    forall a, e
      ensures Bal(c2, a, e) == Bal(c, a, e)
    {
      if a != User(owner) && a != ModuleAccount {
      } else if e != d && e != stable {
      }
    }
  }

  /** The same round trip, with distinct collateral and stable denominations,
      also restores every balance of every account. */
  lemma ModifyRoundTripCoins(k: Keeper, k1: Keeper, r: Keeper, params: Params, env: Env, owner: Address, d: Denom, dc: int, dd: int, dc2: int, dd2: int)
    requires d != env.stableDenom
    requires dc2 == -dc && dd2 == -dd
    requires ModifyCSDT(k, params, env, owner, d, dc, dd) == Done(k1)
    requires ModifyCSDT(k1, params, env, owner, d, dc2, dd2) == Done(r)
    ensures SameBalances(k.coins, r.coins)
  {
    ModifyMovesCoins(k, k1, params, env, owner, d, dc, dd);
    ModifyMovesCoins(k1, r, params, env, owner, d, dc2, dd2);
    CoinsMovedBack(k.coins, k1.coins, r.coins, owner, d, env.stableDenom, dc, dd);
  }

  // ---------- PartialSeizeCSDT ----------

  /** PartialSeizeCSDT: removes collateral and debt from an under-collateralised
      position and lowers its collateral type's total debt; the global debt and
      every balance are left as they were. */
  /** Every guard of PartialSeizeCSDT passes: the position exists, its
      collateral type has a parameter, it is under-collateralised at the
      current price, and both seize amounts are non-negative and covered by
      the position and by its type's total debt. */
  ghost predicate SeizeChecksPass(k: Keeper, params: Params, env: Env, owner: Address, d: Denom, seizeCollateral: int, seizeDebt: int)
  {
    && (owner, d) in k.csdts
    && var c := k.csdts[(owner, d)];
       var param := FindCollateralParam(params.collateralParams, c.collateralDenom);
       && param.Some?
       && env.isUnderCollateralized(c, env.currentPrice(c.collateralDenom), param.value.liquidationRatio)
       && 0 <= seizeCollateral <= c.collateralAmount
       && 0 <= seizeDebt <= c.debt
       && c.collateralDenom in k.collateralStates
       && k.collateralStates[c.collateralDenom] >= seizeDebt
  }

  function PartialSeizeCSDT(k: Keeper, params: Params, env: Env, owner: Address, d: Denom, seizeCollateral: int, seizeDebt: int): (r: Outcome<Keeper, CsdtError>)
    ensures (owner, d) !in k.csdts ==> r == Failed(k, CsdtNotFound)
    ensures r.Failed? ==> r.state == k
    ensures seizeCollateral < 0 && r.Failed? ==> r.error in {CsdtNotFound, Panic, NotUnderLiquidationRatio, NegativeSeizeCollateral}
    ensures r.state.globalDebt == k.globalDebt && r.state.coins == k.coins
    ensures r.Done? ==> (
      var c := k.csdts[(owner, d)];
      var param := FindCollateralParam(params.collateralParams, c.collateralDenom);
      && param.Some?
      && env.isUnderCollateralized(c, env.currentPrice(c.collateralDenom), param.value.liquidationRatio)
      && 0 <= seizeCollateral <= c.collateralAmount
      && 0 <= seizeDebt <= c.debt
      && c.collateralDenom in k.collateralStates
      && k.collateralStates[c.collateralDenom] >= seizeDebt
      && r.state.csdts == Store(k.csdts, c.(collateralAmount := c.collateralAmount - seizeCollateral, debt := c.debt - seizeDebt))
      && TotalDebt(r.state, c.collateralDenom) == TotalDebt(k, c.collateralDenom) - seizeDebt
      && (forall e :: e != c.collateralDenom ==> TotalDebt(r.state, e) == TotalDebt(k, e)))
    // the seize happens exactly when every guard passes
    ensures r.Done? <==> SeizeChecksPass(k, params, env, owner, d, seizeCollateral, seizeDebt)
  {
    if (owner, d) !in k.csdts then Failed(k, CsdtNotFound)
    else
      var c := k.csdts[(owner, d)];
      match FindCollateralParam(params.collateralParams, c.collateralDenom)
      case None => Failed(k, Panic)
      case Some(param) =>
        if !env.isUnderCollateralized(c, env.currentPrice(c.collateralDenom), param.liquidationRatio) then Failed(k, NotUnderLiquidationRatio)
        else if seizeCollateral < 0 then Failed(k, NegativeSeizeCollateral)
        else if c.collateralAmount - seizeCollateral < 0 then Failed(k, SeizeTooMuchCollateral)
        else if seizeDebt < 0 then Failed(k, NegativeSeizeDebt)
        else if c.debt - seizeDebt < 0 then Failed(k, SeizeTooMuchDebt)
        else if c.collateralDenom !in k.collateralStates then Failed(k, CollateralStateNotFound)
        else
          var t := k.collateralStates[c.collateralDenom] - seizeDebt;
          if t < 0 then Failed(k, CollateralStateNegative)
          else
            var c' := c.(collateralAmount := c.collateralAmount - seizeCollateral, debt := c.debt - seizeDebt);
            Done(k.(csdts := Store(k.csdts, c'), collateralStates := k.collateralStates[c.collateralDenom := t]))
  }

  /** PartialSeizeCSDT keeps the keeper well-formed, and seizing everything
      deletes the position. */
  lemma PartialSeizePreservesWellFormed(k: Keeper, params: Params, env: Env, owner: Address, d: Denom, seizeCollateral: int, seizeDebt: int)
    requires WellFormed(k)
    ensures WellFormed(PartialSeizeCSDT(k, params, env, owner, d, seizeCollateral, seizeDebt).state)
    ensures var r := PartialSeizeCSDT(k, params, env, owner, d, seizeCollateral, seizeDebt);
      r.Done? && seizeCollateral == k.csdts[(owner, d)].collateralAmount && seizeDebt == k.csdts[(owner, d)].debt ==>
        (owner, d) !in r.state.csdts
  {
  }

  // ---------- ReduceGlobalDebt ----------

  /** ReduceGlobalDebt: lowers the global debt counter by a non-negative amount
      it covers; nothing else changes. */
  function ReduceGlobalDebt(k: Keeper, amount: int): (r: Outcome<Keeper, CsdtError>)
    ensures amount < 0 ==> r == Failed(k, NegativeReduction)
    ensures 0 <= amount && k.globalDebt < amount ==> r == Failed(k, ReductionTooLarge)
    ensures r.Done? <==> 0 <= amount <= k.globalDebt
    ensures r.Done? ==> r.state == k.(globalDebt := k.globalDebt - amount)
    ensures r.Failed? ==> r.state == k
  {
    if amount < 0 then Failed(k, NegativeReduction)
    else
      var g := k.globalDebt - amount;
      if g < 0 then Failed(k, ReductionTooLarge)
      else Done(k.(globalDebt := g))
  }

  lemma ReduceGlobalDebtPreservesWellFormed(k: Keeper, amount: int)
    requires WellFormed(k)
    ensures WellFormed(ReduceGlobalDebt(k, amount).state)
  {
  }

  /** Two successful reductions are one reduction by the sum. */
  lemma ReduceGlobalDebtAdds(k: Keeper, a: int, b: int)
    requires ReduceGlobalDebt(k, a).Done?
    requires ReduceGlobalDebt(ReduceGlobalDebt(k, a).state, b).Done?
    ensures ReduceGlobalDebt(ReduceGlobalDebt(k, a).state, b) == ReduceGlobalDebt(k, a + b)
  {
  }

  // ---------- GetCSDTs ----------

  /** The positions a store prefix scan over "csdt" + `d` visits. Keys are the
      denomination followed by the owner with no separator, so a non-empty `d`
      also matches denominations that merely start with `d`. */
  function PrefixScan(k: Keeper, d: Denom): (s: set<Csdt>)
    ensures forall key :: key in k.csdts && d <= key.1 + key.0 ==> k.csdts[key] in s
    ensures forall c :: c in s ==> exists key :: key in k.csdts && d <= key.1 + key.0 && k.csdts[key] == c
  {
    set key | key in k.csdts && d <= key.1 + key.0 :: k.csdts[key]
  }

  /** The longest prefix of `s` whose every element satisfies `p`. */
  function TakeWhile(s: seq<Csdt>, p: Csdt -> bool): (r: seq<Csdt>)
    ensures |r| <= |s| && r == s[..|r|]
    ensures forall i :: 0 <= i < |r| ==> p(r[i])
    ensures |r| < |s| ==> !p(s[|r|])
  {
    if |s| == 0 || !p(s[0]) then []
    else
      var rest := TakeWhile(s[1..], p);
      assert [s[0]] + rest == s[..|rest| + 1];
      [s[0]] + rest
  }

  /** `q` lists every element of `s` exactly once: what Go's sort.Sort, an
      in-place permutation, makes of the scanned positions. */
  ghost predicate IsOrdering(s: set<Csdt>, q: seq<Csdt>)
  {
    |q| == |s| && forall c :: c in q <==> c in s
  }

  /** GetCSDTs: rejects an unauthorised non-empty denomination, and a price
      given without a denomination; otherwise lists the scanned positions by
      collateral ratio, cut at the first one not under the liquidation ratio
      at `price` when a non-negative price is given. `price` None is the nil
      price. */
  function GetCSDTs(k: Keeper, params: Params, env: Env, d: Denom, price: Option<int>): (r: Result<seq<Csdt>, CsdtError>)
    ensures |d| != 0 && !IsCollateralPresent(params, d) ==> r == Err(DenomNotAuthorized)
    ensures |d| == 0 && price.Some? && price.value >= 0 ==> r == Err(PriceWithoutDenom)
    ensures r.Err? ==> r.error in {DenomNotAuthorized, PriceWithoutDenom}
    ensures r.Ok? && (price.None? || price.value < 0) ==> r.value == env.byCollateralRatio(PrefixScan(k, d))
    ensures r.Ok? && price.Some? && price.value >= 0 ==> (
      var sorted := env.byCollateralRatio(PrefixScan(k, d));
      var ratio := FindCollateralParam(params.collateralParams, d).value.liquidationRatio;
      && |r.value| <= |sorted|
      && r.value == sorted[..|r.value|]
      && (forall i :: 0 <= i < |r.value| ==> env.isUnderCollateralized(r.value[i], price.value, ratio))
      && (|r.value| < |sorted| ==> !env.isUnderCollateralized(sorted[|r.value|], price.value, ratio)))
    // when the sort permutes the scan, the listing holds only scanned
    // positions, and without a price every one of them exactly once
    ensures r.Ok? && IsOrdering(PrefixScan(k, d), env.byCollateralRatio(PrefixScan(k, d))) ==>
      && (forall c :: c in r.value ==> c in PrefixScan(k, d))
      && ((price.None? || price.value < 0) ==> |r.value| == |PrefixScan(k, d)| && forall c :: c in PrefixScan(k, d) ==> c in r.value)
  {
    if |d| != 0 && !IsCollateralPresent(params, d) then Err(DenomNotAuthorized)
    else if |d| == 0 && price.Some? && price.value >= 0 then Err(PriceWithoutDenom)
    else
      var sorted := env.byCollateralRatio(PrefixScan(k, d));
      if price.None? || price.value < 0 then Ok(sorted)
      else
        var ratio := FindCollateralParam(params.collateralParams, d).value.liquidationRatio;
        Ok(TakeWhile(sorted, c => env.isUnderCollateralized(c, price.value, ratio)))
  }

  /** With a sort that permutes its input, GetCSDTs lists only stored
      positions whose key starts with the denomination, and without a price
      it lists every such position. */
  lemma GetCSDTsListsScan(k: Keeper, params: Params, env: Env, d: Denom, price: Option<int>)
    requires IsOrdering(PrefixScan(k, d), env.byCollateralRatio(PrefixScan(k, d)))
    requires GetCSDTs(k, params, env, d, price).Ok?
    ensures forall c :: c in GetCSDTs(k, params, env, d, price).value ==>
      exists key :: key in k.csdts && d <= key.1 + key.0 && k.csdts[key] == c
    ensures price.None? || price.value < 0 ==>
      forall key :: key in k.csdts && d <= key.1 + key.0 ==> k.csdts[key] in GetCSDTs(k, params, env, d, price).value
  {
  }

  // ---------- IsNominee ----------

  /** IsNominee: a linear scan of the nominee list. */
  method IsNominee(params: Params, nominee: string) returns (found: bool)
    ensures found <==> nominee in params.nominees
  {
    var i := 0;
    while i < |params.nominees|
      invariant 0 <= i <= |params.nominees|
      invariant nominee !in params.nominees[..i]
    {
      if params.nominees[i] == nominee {
        return true;
      }
      i := i + 1;
    }
    assert params.nominees[..i] == params.nominees;
    return false;
  }
}

=== FILE: denominations_genesis.dfy ===
/** The denominations module's genesis state and its validation: every token
    record must name an owner, a symbol, a name and an original symbol. */
module DenominationsGenesis {
  import opened Common

  /** The token fields genesis validation reads; `owner` None is a nil owner
      address (an empty but non-nil address is Some("")). */
  datatype Token = Token(owner: Option<Address>, symbol: string, name: string, originalSymbol: string)

  datatype GenesisState = GenesisState(tokenRecords: seq<Token>, nominees: seq<string>)

  datatype Field = Owner | Symbol | Name | OriginalSymbol

  /** The record at `index` is the first invalid one, and `missing` is the
      first field it lacks. */
  datatype GenesisError = InvalidTokenRecord(index: nat, missing: Field)

  ghost predicate ValidRecord(t: Token)
  {
    t.owner.Some? && t.symbol != "" && t.name != "" && t.originalSymbol != ""
  }

  /** The first field a record lacks, in the order the checks run. */
  function Missing(t: Token): (f: Option<Field>)
    ensures f.None? <==> ValidRecord(t)
    ensures f == Some(Owner) <==> t.owner.None?
    ensures f == Some(Symbol) <==> t.owner.Some? && t.symbol == ""
    ensures f == Some(Name) <==> t.owner.Some? && t.symbol != "" && t.name == ""
  {
    if t.owner.None? then Some(Owner)
    else if t.symbol == "" then Some(Symbol)
    else if t.name == "" then Some(Name)
    else if t.originalSymbol == "" then Some(OriginalSymbol)
    else None
  }

  /** The records checked in order; the first invalid one decides the error. */
  function CheckRecords(records: seq<Token>): (r: Option<GenesisError>)
    ensures r.None? <==> forall i :: 0 <= i < |records| ==> ValidRecord(records[i])
    ensures r.Some? ==> (&& r.value.index < |records|
                         && !ValidRecord(records[r.value.index])
                         && Missing(records[r.value.index]) == Some(r.value.missing)
                         && forall j :: 0 <= j < r.value.index ==> ValidRecord(records[j]))
  {
    if |records| == 0 then None
    else match Missing(records[0])
      case Some(f) => Some(InvalidTokenRecord(0, f))
      case None =>
        match CheckRecords(records[1..])
        case None => None
        case Some(InvalidTokenRecord(i, f)) => Some(InvalidTokenRecord(i + 1, f))
  }

  /** ValidateGenesis: None is the nil error. */
  function ValidateGenesis(data: GenesisState): (r: Option<GenesisError>)
    ensures r.None? <==> forall t :: t in data.tokenRecords ==> ValidRecord(t)
  {
    CheckRecords(data.tokenRecords)
  }

  function NewGenesisState(nominees: seq<string>): (g: GenesisState)
    ensures g.tokenRecords == [] && g.nominees == nominees
  {
    GenesisState([], nominees)
  }

  function DefaultGenesisState(): (g: GenesisState)
    ensures g.tokenRecords == [] && g.nominees == []
  {
    GenesisState([], [])
  }

  /** The default state, and any fresh state, validates. */
  lemma FreshStatesValidate(nominees: seq<string>)
    ensures ValidateGenesis(DefaultGenesisState()).None?
    ensures ValidateGenesis(NewGenesisState(nominees)).None?
  {
  }

  /** Validation never reads the nominee list. */
  lemma NomineesAreIgnored(data: GenesisState, nominees: seq<string>)
    ensures ValidateGenesis(data.(nominees := nominees)) == ValidateGenesis(data)
  {
  }

  /** Appending a valid record to a valid state keeps it valid; appending any
      record to an invalid state keeps the same error. */
  lemma {:induction false} AppendRecord(records: seq<Token>, t: Token)
    ensures CheckRecords(records).Some? ==> CheckRecords(records + [t]) == CheckRecords(records)
    ensures CheckRecords(records).None? && ValidRecord(t) ==> CheckRecords(records + [t]).None?
    ensures CheckRecords(records).None? && !ValidRecord(t) ==>
      CheckRecords(records + [t]) == Some(InvalidTokenRecord(|records|, Missing(t).value))
  {
    if |records| == 0 {
      assert records + [t] == [t];
    } else {
      assert (records + [t])[0] == records[0];
      assert (records + [t])[1..] == records[1..] + [t];
      AppendRecord(records[1..], t);
    }
  }
}

=== FILE: execution.dfy ===
/** The per-block step of the exchange: cancel expired orders, route the
    surviving orders into one matcher per market, match every market, and
    only then settle every fill. */
module Execution {
  import opened Common
  import opened Orders
  import opened Settlement

  /** The arguments of a matcher's EnqueueOrder. */
  datatype Entry = Entry(direction: Direction, id: OrderId, price: nat, quantity: nat)

  /** One market's matcher and the orders enqueued into it, in enqueue order. */
  datatype Matcher = Matcher(marketId: MarketId, queue: seq<Entry>)

  /** The order keeper's Cancel as far as this model sees it: whether it
      refuses to cancel an id, and the bank balances after a cancelled
      order's frozen coins are returned to its owner. How much is frozen and
      returned is decided by the order keeper, whose code is not part of this
      model. */
  datatype OrderKeeper = OrderKeeper(
    rejects: OrderId -> bool,
    release: (map<Holding, nat>, Order) -> map<Holding, nat>)

  /** What the block step consumes but this model does not define: the bank's
      credit failures, the order keeper's Cancel, and the matching engine's
      Match (None for a market with no cross). */
  datatype Env = Env(
    rejects: CreditPolicy,
    ordK: OrderKeeper,
    matchFn: seq<Entry> -> Option<MatchResult>)

  /** An order has outlived its time in force at `height`. */
  predicate Expired(o: Order, height: int)
  {
    height - o.createdBlock > o.timeInForceBlocks
  }

  lemma ExpiryBoundary(o: Order, height: int)
    ensures height - o.createdBlock == o.timeInForceBlocks ==> !Expired(o, height)
    ensures height - o.createdBlock == o.timeInForceBlocks + 1 ==> Expired(o, height)
  {
  }

  lemma {:induction false} FilterKeepsIncreasing(s: seq<nat>, p: nat -> bool)
    requires StrictlyIncreasing(s)
    ensures StrictlyIncreasing(Filter(s, p))
  {
    if |s| > 0 {
      FilterKeepsIncreasing(s[1..], p);
      var rest := Filter(s[1..], p);
      forall i | 0 <= i < |rest|
        ensures s[0] < rest[i]
      {
        assert rest[i] in s[1..];
      }
    }
  }

  /** The expiry scan: ids of expired orders, collected in ascending id order
      before anything is cancelled. */
  function CollectExpired(orders: map<OrderId, Order>, height: int): (ids: seq<OrderId>)
    ensures forall id :: id in ids <==> id in orders && Expired(orders[id], height)
    ensures StrictlyIncreasing(ids)
  {
    var all := Ascending(orders.Keys);
    var p := id => id in orders && Expired(orders[id], height);
    FilterKeepsIncreasing(all, p);
    Filter(all, p)
  }

  /** The balances after the frozen coins of each order in `os` are
      returned, one order after the other. */
  function Released(balances: map<Holding, nat>, ordK: OrderKeeper, os: seq<Order>): map<Holding, nat>
    decreases |os|
  {
    if |os| == 0 then balances else Released(ordK.release(balances, os[0]), ordK, os[1..])
  }

  lemma ReleasedSnoc(balances: map<Holding, nat>, ordK: OrderKeeper, os: seq<Order>, o: Order)
    ensures Released(balances, ordK, os + [o]) == ordK.release(Released(balances, ordK, os), o)
    decreases |os|
  {
    if |os| > 0 {
      assert (os + [o])[1..] == os[1..] + [o];
      ReleasedSnoc(ordK.release(balances, os[0]), ordK, os[1..], o);
    }
  }

  /** The order keeper's Cancel: a missing or refused order fails with the
      state untouched; otherwise the order leaves the store and its frozen
      coins are returned. */
  function Cancel(book: Book, ordK: OrderKeeper, id: OrderId): (r: Outcome<Book, ExecError>)
    ensures id !in book.orders ==> r == Failed(book, OrderNotFound(id))
    ensures id in book.orders && ordK.rejects(id) ==> r == Failed(book, CancelRejected(id))
    ensures r.Done? <==> id in book.orders && !ordK.rejects(id)
    ensures r.Done? ==> r.state.orders == book.orders - {id} && r.state.markets == book.markets
    ensures r.Done? ==> r.state.balances == Released(book.balances, ordK, [book.orders[id]])
  {
    if id !in book.orders then Failed(book, OrderNotFound(id))
    else if ordK.rejects(id) then Failed(book, CancelRejected(id))
    else Done(book.(orders := book.orders - {id}, balances := ordK.release(book.balances, book.orders[id])))
  }

  /** Cancels the collected ids in order; the first failure aborts. */
  function CancelAll(book: Book, ordK: OrderKeeper, ids: seq<OrderId>): (r: Outcome<Book, ExecError>)
    ensures r.state.markets == book.markets
    ensures r.Done? ==> forall id :: id in r.state.orders <==> id in book.orders && id !in ids
    ensures r.Done? ==> forall id :: id in r.state.orders ==> r.state.orders[id] == book.orders[id]
    ensures r.Done? ==> forall id :: id in ids ==> !ordK.rejects(id)
    ensures r.Failed? ==> exists k :: 0 <= k < |ids| && r.error in {OrderNotFound(ids[k]), CancelRejected(ids[k])}
    decreases |ids|
  {
    if |ids| == 0 then Done(book)
    else
      match Cancel(book, ordK, ids[0])
      case Failed(b, e) => Failed(b, e)
      case Done(b1) =>
        var r := CancelAll(b1, ordK, ids[1..]);
        assert forall id :: id in ids <==> id == ids[0] || id in ids[1..];
        assert r.Failed? ==> exists k :: 0 <= k < |ids| && r.error in {OrderNotFound(ids[k]), CancelRejected(ids[k])} by {
          if r.Failed? {
            var k :| 0 <= k < |ids[1..]| && r.error in {OrderNotFound(ids[1..][k]), CancelRejected(ids[1..][k])};
            assert ids[1..][k] == ids[k + 1];
          }
        }
        r
  }

  /** Looking ids up in a store, or in a larger store that agrees on them,
      gives the same orders. */
  lemma LookupSubmap(small: map<OrderId, Order>, big: map<OrderId, Order>, ids: seq<OrderId>)
    requires forall i :: 0 <= i < |ids| ==> ids[i] in small
    requires forall id :: id in small ==> id in big && big[id] == small[id]
    ensures Lookup(small, ids) == Lookup(big, ids)
  {
  }

  lemma PrefixMembership(s: seq<nat>, k: nat)
    requires 0 < k <= |s|
    ensures forall x :: x in s[..k] <==> x == s[0] || x in s[1..][..k - 1]
  {
    assert s[..k] == [s[0]] + s[1..][..k - 1];
  }

  /** The position of the first id the order keeper refuses to cancel, or
      |ids| when it accepts them all. */
  function FirstRejection(ids: seq<OrderId>, cancelRejects: OrderId -> bool): (k: nat)
    ensures k <= |ids|
    ensures forall j :: 0 <= j < k ==> !cancelRejects(ids[j])
    ensures k < |ids| ==> cancelRejects(ids[k])
  {
    if |ids| == 0 then 0
    else if cancelRejects(ids[0]) then 0
    else 1 + FirstRejection(ids[1..], cancelRejects)
  }

  /** When the collected ids are distinct and stored, the cancellation pass
      removes exactly the ids before the first refusal, and fails with that
      refusal if there is one. */
  lemma {:induction false} CancelAllStopsAtFirstRejection(book: Book, ordK: OrderKeeper, ids: seq<OrderId>)
    requires StrictlyIncreasing(ids)
    requires forall i :: 0 <= i < |ids| ==> ids[i] in book.orders
    ensures FirstRejection(ids, ordK.rejects) == |ids| ==> CancelAll(book, ordK, ids).Done?
    ensures FirstRejection(ids, ordK.rejects) < |ids| ==>
      CancelAll(book, ordK, ids).Failed? &&
      CancelAll(book, ordK, ids).error == CancelRejected(ids[FirstRejection(ids, ordK.rejects)])
    ensures forall id :: id in CancelAll(book, ordK, ids).state.orders <==>
      id in book.orders && id !in ids[..FirstRejection(ids, ordK.rejects)]
    decreases |ids|
  {
    var r := CancelAll(book, ordK, ids);
    var k := FirstRejection(ids, ordK.rejects);
    if |ids| == 0 {
    } else if ordK.rejects(ids[0]) {
      assert r == Failed(book, CancelRejected(ids[0]));
      assert ids[..k] == [];
    } else {
      var b1 := CancelFirst(book, ordK, ids);
      CancelAllStopsAtFirstRejection(b1, ordK, ids[1..]);
      PrefixMembership(ids, k);
    }
  }

  /** Cancelling the first of distinct stored ids, when it is accepted: the
      rest of the pass runs on the store without it. */
  lemma CancelFirst(book: Book, ordK: OrderKeeper, ids: seq<OrderId>) returns (b1: Book)
    requires StrictlyIncreasing(ids)
    requires forall i :: 0 <= i < |ids| ==> ids[i] in book.orders
    requires |ids| > 0 && !ordK.rejects(ids[0])
    ensures b1.orders == book.orders - {ids[0]}
    ensures b1.balances == ordK.release(book.balances, book.orders[ids[0]])
    ensures CancelAll(book, ordK, ids) == CancelAll(b1, ordK, ids[1..])
    ensures StrictlyIncreasing(ids[1..])
    ensures forall i :: 0 <= i < |ids[1..]| ==> ids[1..][i] in b1.orders
    ensures FirstRejection(ids, ordK.rejects) == FirstRejection(ids[1..], ordK.rejects) + 1
  {
    b1 := book.(orders := book.orders - {ids[0]}, balances := ordK.release(book.balances, book.orders[ids[0]]));
    assert Cancel(book, ordK, ids[0]) == Done(b1);
    forall i | 0 <= i < |ids[1..]|
      ensures ids[1..][i] in b1.orders
    {
      assert ids[0] < ids[i + 1];
    }
  }

  /** When the collected ids are distinct and stored, the balances after the
      cancellation pass are the old ones with the frozen coins of exactly the
      orders before the first refusal returned, in id order. */
  lemma {:induction false} CancelAllReleases(book: Book, ordK: OrderKeeper, ids: seq<OrderId>)
    requires StrictlyIncreasing(ids)
    requires forall i :: 0 <= i < |ids| ==> ids[i] in book.orders
    ensures CancelAll(book, ordK, ids).state.balances ==
      Released(book.balances, ordK, Lookup(book.orders, ids[..FirstRejection(ids, ordK.rejects)]))
    decreases |ids|
  {
    var k := FirstRejection(ids, ordK.rejects);
    if |ids| == 0 {
    } else if ordK.rejects(ids[0]) {
      assert ids[..k] == [];
    } else {
      var b1 := CancelFirst(book, ordK, ids);
      CancelAllReleases(b1, ordK, ids[1..]);
      var k1 := FirstRejection(ids[1..], ordK.rejects);
      LookupSubmap(b1.orders, book.orders, ids[1..][..k1]);
      LookupPrefix(book.orders, ids, k);
    }
  }

  lemma LookupPrefix(orders: map<OrderId, Order>, ids: seq<OrderId>, k: nat)
    requires 0 < k <= |ids|
    requires forall i :: 0 <= i < |ids| ==> ids[i] in orders
    ensures Lookup(orders, ids[..k]) == [orders[ids[0]]] + Lookup(orders, ids[1..][..k - 1])
  {
    assert ids[..k][1..] == ids[1..][..k - 1];
  }

  function EntryOf(o: Order): Entry
  {
    Entry(o.direction, o.id, o.price, o.quantity)
  }

  /** The index of the first matcher for `marketId`, if any. */
  function FindMatcher(ms: seq<Matcher>, marketId: MarketId): (r: Option<nat>)
    ensures r.Some? ==> r.value < |ms| && ms[r.value].marketId == marketId
    ensures r.Some? ==> forall j :: 0 <= j < r.value ==> ms[j].marketId != marketId
    ensures r.None? <==> forall j :: 0 <= j < |ms| ==> ms[j].marketId != marketId
  {
    if |ms| == 0 then None
    else if ms[0].marketId == marketId then Some(0)
    else match FindMatcher(ms[1..], marketId)
      case None => None
      case Some(i) => Some(i + 1)
  }

  /** getMatcherByMarket followed by EnqueueOrder: the order joins the queue of
      its market's matcher, which is created on first sight of the market. */
  function Route(ms: seq<Matcher>, o: Order): seq<Matcher>
  {
    match FindMatcher(ms, o.marketId)
    case None => ms + [Matcher(o.marketId, [EntryOf(o)])]
    case Some(i) => ms[i := ms[i].(queue := ms[i].queue + [EntryOf(o)])]
  }

  /** The entries of the orders of market `marketId`, in visiting order. */
  function MarketQueue(os: seq<Order>, marketId: MarketId): seq<Entry>
  {
    if |os| == 0 then []
    else
      var last := os[|os| - 1];
      MarketQueue(os[..|os| - 1], marketId) + (if last.marketId == marketId then [EntryOf(last)] else [])
  }

  ghost predicate DistinctMarkets(ms: seq<Matcher>)
  {
    forall i, j :: 0 <= i < j < |ms| ==> ms[i].marketId != ms[j].marketId
  }

  /** Routes every visited order in visiting order. */
  function RouteAll(os: seq<Order>): (ms: seq<Matcher>)
    ensures |ms| <= |os|
  {
    if |os| == 0 then [] else Route(RouteAll(os[..|os| - 1]), os[|os| - 1])
  }

  /** The matchers are one per market and hold exactly their market's orders. */
  ghost predicate PerMarket(ms: seq<Matcher>, os: seq<Order>)
  {
    && DistinctMarkets(ms)
    && (forall i :: 0 <= i < |ms| ==> ms[i].queue == MarketQueue(os, ms[i].marketId))
    && (forall i :: 0 <= i < |ms| ==> ms[i].queue != [])
    && (forall o :: o in os ==> FindMatcher(ms, o.marketId).Some?)
  }

  /** A market that no visited order belongs to has an empty queue. */
  lemma {:induction false} MarketQueueEmpty(os: seq<Order>, marketId: MarketId)
    requires forall o :: o in os ==> o.marketId != marketId
    ensures MarketQueue(os, marketId) == []
  {
    if |os| > 0 {
      assert forall o :: o in os[..|os| - 1] ==> o in os;
      MarketQueueEmpty(os[..|os| - 1], marketId);
    }
  }

  lemma MarketQueueSnoc(os: seq<Order>, o: Order, marketId: MarketId)
    ensures MarketQueue(os + [o], marketId) ==
      MarketQueue(os, marketId) + (if o.marketId == marketId then [EntryOf(o)] else [])
  {
    assert (os + [o])[..|os|] == os;
  }

  /** A new market: the order opens a matcher of its own at the end. */
  lemma {:induction false} RouteOpensMatcher(ms: seq<Matcher>, os: seq<Order>, o: Order)
    requires PerMarket(ms, os)
    requires FindMatcher(ms, o.marketId).None?
    ensures PerMarket(Route(ms, o), os + [o])
  {
    var ms' := Route(ms, o);
    var os' := os + [o];
    assert ms' == ms + [Matcher(o.marketId, [EntryOf(o)])];
    assert DistinctMarkets(ms');
    forall i | 0 <= i < |ms'|
      ensures ms'[i].queue == MarketQueue(os', ms'[i].marketId)
    {
      MarketQueueSnoc(os, o, ms'[i].marketId);
      if i == |ms| {
        assert forall x :: x in os ==> x.marketId != o.marketId;
        MarketQueueEmpty(os, o.marketId);
      }
    }
    forall x | x in os'
      ensures FindMatcher(ms', x.marketId).Some?
    {
      if x.marketId == o.marketId {
        assert ms'[|ms|].marketId == x.marketId;
      } else {
        assert x in os;
        var i := FindMatcher(ms, x.marketId).value;
        assert ms'[i].marketId == x.marketId;
      }
    }
  }

  /** A known market: the order joins the end of that market's queue. */
  lemma {:induction false} RouteJoinsMatcher(ms: seq<Matcher>, os: seq<Order>, o: Order, k: nat)
    requires PerMarket(ms, os)
    requires FindMatcher(ms, o.marketId) == Some(k)
    ensures PerMarket(Route(ms, o), os + [o])
  {
    var ms' := Route(ms, o);
    assert ms' == ms[k := ms[k].(queue := ms[k].queue + [EntryOf(o)])];
    assert forall i :: 0 <= i < |ms| ==> ms'[i].marketId == ms[i].marketId;
    assert DistinctMarkets(ms');
    JoinedQueues(ms, os, o, k);
    JoinedFinds(ms, os, o, k);
  }

  lemma JoinedQueues(ms: seq<Matcher>, os: seq<Order>, o: Order, k: nat)
    requires PerMarket(ms, os)
    requires FindMatcher(ms, o.marketId) == Some(k)
    ensures |Route(ms, o)| == |ms|
    ensures forall i :: 0 <= i < |ms| ==> Route(ms, o)[i].queue == MarketQueue(os + [o], Route(ms, o)[i].marketId)
  {
    var ms' := Route(ms, o);
    assert ms' == ms[k := ms[k].(queue := ms[k].queue + [EntryOf(o)])];
    forall i | 0 <= i < |ms'|
      ensures ms'[i].queue == MarketQueue(os + [o], ms'[i].marketId)
    {
      MarketQueueSnoc(os, o, ms'[i].marketId);
    }
  }

  lemma JoinedFinds(ms: seq<Matcher>, os: seq<Order>, o: Order, k: nat)
    requires PerMarket(ms, os)
    requires FindMatcher(ms, o.marketId) == Some(k)
    ensures forall x :: x in os + [o] ==> FindMatcher(Route(ms, o), x.marketId).Some?
  {
    var ms' := Route(ms, o);
    assert ms' == ms[k := ms[k].(queue := ms[k].queue + [EntryOf(o)])];
    forall x | x in os + [o]
      ensures FindMatcher(ms', x.marketId).Some?
    {
      if x.marketId == o.marketId {
        assert ms'[k].marketId == x.marketId;
      } else {
        assert x in os;
        var i := FindMatcher(ms, x.marketId).value;
        assert ms'[i].marketId == x.marketId;
      }
    }
  }

  /** getMatcherByMarket plus EnqueueOrder keeps the matchers per market. */
  lemma RouteKeepsPerMarket(ms: seq<Matcher>, os: seq<Order>, o: Order)
    requires PerMarket(ms, os)
    ensures PerMarket(Route(ms, o), os + [o])
  {
    match FindMatcher(ms, o.marketId)
    case None => RouteOpensMatcher(ms, os, o);
    case Some(k) => RouteJoinsMatcher(ms, os, o, k);
  }

  /** Every visited order's market has exactly one matcher, whose queue is
      that market's orders in visiting order. */
  lemma {:induction false} RouteAllIsPerMarket(os: seq<Order>)
    ensures PerMarket(RouteAll(os), os)
  {
    if |os| > 0 {
      var init, last := os[..|os| - 1], os[|os| - 1];
      SplitLast(os);
      RouteAllIsPerMarket(init);
      RouteKeepsPerMarket(RouteAll(init), init, last);
    }
  }

  lemma SplitLast(os: seq<Order>)
    requires |os| > 0
    ensures os == os[..|os| - 1] + [os[|os| - 1]]
    ensures RouteAll(os) == Route(RouteAll(os[..|os| - 1]), os[|os| - 1])
  {
  }

  /** Every visited order of the market is in its queue. */
  lemma {:induction false} MarketQueueHasAll(os: seq<Order>, marketId: MarketId)
    ensures forall o :: o in os && o.marketId == marketId ==> EntryOf(o) in MarketQueue(os, marketId)
  {
    if |os| > 0 {
      var init := os[..|os| - 1];
      var last := os[|os| - 1];
      MarketQueueHasAll(init, marketId);
      var q := MarketQueue(os, marketId);
      var q0 := MarketQueue(init, marketId);
      assert q == q0 + (if last.marketId == marketId then [EntryOf(last)] else []);
      forall o | o in os && o.marketId == marketId
        ensures EntryOf(o) in q
      {
        var k :| 0 <= k < |os| && os[k] == o;
        if k < |os| - 1 {
          assert init[k] == o;
          assert EntryOf(o) in q0;
        }
      }
    }
  }

  /** Every queued entry is that of a visited order of the market, named by
      its position in the visiting order. */
  lemma {:induction false} MarketQueueOnlyMarket(os: seq<Order>, marketId: MarketId)
    ensures forall e :: e in MarketQueue(os, marketId) ==>
      exists k :: 0 <= k < |os| && os[k].marketId == marketId && EntryOf(os[k]) == e
  {
    if |os| > 0 {
      var init := os[..|os| - 1];
      var last := os[|os| - 1];
      MarketQueueOnlyMarket(init, marketId);
      var q := MarketQueue(os, marketId);
      var q0 := MarketQueue(init, marketId);
      assert q == q0 + (if last.marketId == marketId then [EntryOf(last)] else []);
      forall e | e in q
        ensures exists k :: 0 <= k < |os| && os[k].marketId == marketId && EntryOf(os[k]) == e
      {
        if e in q0 {
          var k :| 0 <= k < |init| && init[k].marketId == marketId && EntryOf(init[k]) == e;
          assert os[k] == init[k];
        } else {
          var k := |os| - 1;
          assert os[k] == last && last.marketId == marketId && e == EntryOf(last);
        }
      }
    } else {
      assert MarketQueue(os, marketId) == [];
    }
  }

  /** A queue holds each of its market's orders, and nothing else. */
  lemma MarketQueueMembership(os: seq<Order>, marketId: MarketId)
    ensures forall o :: o in os && o.marketId == marketId ==> EntryOf(o) in MarketQueue(os, marketId)
    ensures forall e :: e in MarketQueue(os, marketId) ==>
      exists o :: o in os && o.marketId == marketId && EntryOf(o) == e
  {
    MarketQueueHasAll(os, marketId);
    MarketQueueOnlyMarket(os, marketId);
    forall e | e in MarketQueue(os, marketId)
      ensures exists o :: o in os && o.marketId == marketId && EntryOf(o) == e
    {
      var k :| 0 <= k < |os| && os[k].marketId == marketId && EntryOf(os[k]) == e;
      assert os[k] in os;
    }
  }

  /** Visiting in strictly descending id order, each queue also descends, so
      no order is enqueued twice. */
  lemma {:induction false} MarketQueueDescends(os: seq<Order>, marketId: MarketId)
    requires forall i, j :: 0 <= i < j < |os| ==> os[i].id > os[j].id
    ensures forall i, j :: 0 <= i < j < |MarketQueue(os, marketId)| ==>
      MarketQueue(os, marketId)[i].id > MarketQueue(os, marketId)[j].id
  {
    if |os| > 0 {
      var init := os[..|os| - 1];
      var last := os[|os| - 1];
      MarketQueueDescends(init, marketId);
      MarketQueueOnlyMarket(init, marketId);
      var q := MarketQueue(os, marketId);
      var q0 := MarketQueue(init, marketId);
      assert q == q0 + (if last.marketId == marketId then [EntryOf(last)] else []);
      forall i | 0 <= i < |q0|
        ensures q0[i].id > last.id
      {
        var e := q0[i];
        assert e in q0;
        var k :| 0 <= k < |init| && init[k].marketId == marketId && EntryOf(init[k]) == e;
        assert os[k] == init[k];
      }
    }
  }

  /** Match runs for every matcher; a non-null result is kept and a market
      without a cross is skipped. */
  function MatchAll(ms: seq<Matcher>, matchFn: seq<Entry> -> Option<MatchResult>): (rs: seq<MatchResult>)
    ensures |rs| <= |ms|
    ensures forall r :: r in rs ==> exists i :: 0 <= i < |ms| && matchFn(ms[i].queue) == Some(r)
    ensures forall i :: 0 <= i < |ms| && matchFn(ms[i].queue).Some? ==> matchFn(ms[i].queue).value in rs
    ensures (forall i :: 0 <= i < |ms| ==> matchFn(ms[i].queue).None?) ==> rs == []
  {
    if |ms| == 0 then []
    else
      var rest := MatchAll(ms[1..], matchFn);
      assert forall r :: r in rest ==> exists i :: 0 <= i < |ms| && matchFn(ms[i].queue) == Some(r) by {
        forall r | r in rest
          ensures exists i :: 0 <= i < |ms| && matchFn(ms[i].queue) == Some(r)
        {
          var i :| 0 <= i < |ms[1..]| && matchFn(ms[1..][i].queue) == Some(r);
          assert ms[i + 1] == ms[1..][i];
        }
      }
      assert forall i :: 1 <= i < |ms| && matchFn(ms[i].queue).Some? ==> matchFn(ms[i].queue).value in rest by {
        forall i | 1 <= i < |ms| && matchFn(ms[i].queue).Some?
          ensures matchFn(ms[i].queue).value in rest
        {
          assert ms[1..][i - 1] == ms[i];
        }
      }
      match matchFn(ms[0].queue)
      case None => rest
      case Some(res) => [res] + rest
  }

  /** `idx` lists, in increasing order, exactly the matchers whose Match is
      non-null, and `rs[j]` is the result of matcher `idx[j]`. */
  ghost predicate CrossingsAt(ms: seq<Matcher>, matchFn: seq<Entry> -> Option<MatchResult>, rs: seq<MatchResult>, idx: seq<nat>)
  {
    && |idx| == |rs|
    && (forall j :: 0 <= j < |idx| ==> idx[j] < |ms| && matchFn(ms[idx[j]].queue) == Some(rs[j]))
    && (forall j, l :: 0 <= j < l < |idx| ==> idx[j] < idx[l])
    && (forall i :: 0 <= i < |ms| && matchFn(ms[i].queue).Some? ==> i in idx)
  }

  /** The results are exactly the non-null results of the matchers, one per
      crossing market, in matcher order. */
  lemma {:induction false} MatchAllKeepsEveryCross(ms: seq<Matcher>, matchFn: seq<Entry> -> Option<MatchResult>)
    ensures exists idx :: CrossingsAt(ms, matchFn, MatchAll(ms, matchFn), idx)
  {
    if |ms| == 0 {
      assert CrossingsAt(ms, matchFn, MatchAll(ms, matchFn), []);
    } else {
      var rest := MatchAll(ms[1..], matchFn);
      MatchAllKeepsEveryCross(ms[1..], matchFn);
      var idx' :| CrossingsAt(ms[1..], matchFn, rest, idx');
      var shifted := ShiftCrossings(ms, matchFn, rest, idx');
      var idx := CrossingsCons(ms, matchFn, rest, shifted);
      assert MatchAll(ms, matchFn) == (if matchFn(ms[0].queue).Some? then [matchFn(ms[0].queue).value] else []) + rest;
    }
  }

  /** The crossings of the matchers after the first, renumbered from 1, with
      the first matcher's result in front when it has one. */
  lemma CrossingsCons(ms: seq<Matcher>, matchFn: seq<Entry> -> Option<MatchResult>, rest: seq<MatchResult>, shifted: seq<nat>)
    returns (idx: seq<nat>)
    requires |ms| > 0
    requires |shifted| == |rest|
    requires forall j :: 0 <= j < |shifted| ==> 0 < shifted[j] < |ms| && matchFn(ms[shifted[j]].queue) == Some(rest[j])
    requires forall j, l :: 0 <= j < l < |shifted| ==> shifted[j] < shifted[l]
    requires forall i :: 1 <= i < |ms| && matchFn(ms[i].queue).Some? ==> i in shifted
    ensures CrossingsAt(ms, matchFn, (if matchFn(ms[0].queue).Some? then [matchFn(ms[0].queue).value] else []) + rest, idx)
  {
    if matchFn(ms[0].queue).Some? {
      idx := CrossingsPrepend(ms, matchFn, matchFn(ms[0].queue).value, rest, shifted);
    } else {
      idx := shifted;
    }
  }

  /** A crossing at the first matcher goes in front of the renumbered rest. */
  lemma CrossingsPrepend(ms: seq<Matcher>, matchFn: seq<Entry> -> Option<MatchResult>, v: MatchResult, rest: seq<MatchResult>, shifted: seq<nat>)
    returns (idx: seq<nat>)
    requires |ms| > 0 && matchFn(ms[0].queue) == Some(v)
    requires |shifted| == |rest|
    requires forall j :: 0 <= j < |shifted| ==> 0 < shifted[j] < |ms| && matchFn(ms[shifted[j]].queue) == Some(rest[j])
    requires forall j, l :: 0 <= j < l < |shifted| ==> shifted[j] < shifted[l]
    requires forall i :: 1 <= i < |ms| && matchFn(ms[i].queue).Some? ==> i in shifted
    ensures CrossingsAt(ms, matchFn, [v] + rest, idx)
  {
    var out := [v] + rest;
    idx := [0] + shifted;
    forall j | 0 <= j < |idx|
      ensures idx[j] < |ms| && matchFn(ms[idx[j]].queue) == Some(out[j])
    {
      if j > 0 {
        assert idx[j] == shifted[j - 1] && out[j] == rest[j - 1];
      }
    }
    forall j, l | 0 <= j < l < |idx|
      ensures idx[j] < idx[l]
    {
      assert idx[l] == shifted[l - 1];
      if j > 0 {
        assert idx[j] == shifted[j - 1];
      }
    }
    forall i | 0 <= i < |ms| && matchFn(ms[i].queue).Some?
      ensures i in idx
    {
      if i > 0 {
        assert i in shifted;
      }
    }
  }

  /** The crossings of the matchers after the first, renumbered from 1. */
  lemma ShiftCrossings(ms: seq<Matcher>, matchFn: seq<Entry> -> Option<MatchResult>, rest: seq<MatchResult>, idx': seq<nat>)
    returns (shifted: seq<nat>)
    requires |ms| > 0
    requires CrossingsAt(ms[1..], matchFn, rest, idx')
    ensures |shifted| == |rest|
    ensures forall j :: 0 <= j < |shifted| ==> 0 < shifted[j] < |ms| && matchFn(ms[shifted[j]].queue) == Some(rest[j])
    ensures forall j, l :: 0 <= j < l < |shifted| ==> shifted[j] < shifted[l]
    ensures forall i :: 1 <= i < |ms| && matchFn(ms[i].queue).Some? ==> i in shifted
  {
    shifted := Shift(idx');
    ShiftedHits(ms, matchFn, rest, idx');
    ShiftedCovers(ms, matchFn, idx');
  }

  /** Every index moved up by one. */
  function Shift(idx: seq<nat>): (s: seq<nat>)
    ensures |s| == |idx|
    ensures forall j :: 0 <= j < |idx| ==> s[j] == idx[j] + 1
  {
    seq(|idx|, j requires 0 <= j < |idx| => idx[j] + 1)
  }

  lemma ShiftedHits(ms: seq<Matcher>, matchFn: seq<Entry> -> Option<MatchResult>, rest: seq<MatchResult>, idx': seq<nat>)
    requires |ms| > 0 && |idx'| == |rest|
    requires forall j :: 0 <= j < |idx'| ==> idx'[j] < |ms[1..]| && matchFn(ms[1..][idx'[j]].queue) == Some(rest[j])
    ensures forall j :: 0 <= j < |idx'| ==> 0 < Shift(idx')[j] < |ms| && matchFn(ms[Shift(idx')[j]].queue) == Some(rest[j])
  {
    forall j | 0 <= j < |idx'|
      ensures 0 < Shift(idx')[j] < |ms| && matchFn(ms[Shift(idx')[j]].queue) == Some(rest[j])
    {
      assert ms[1..][idx'[j]] == ms[idx'[j] + 1];
    }
  }

  lemma ShiftedCovers(ms: seq<Matcher>, matchFn: seq<Entry> -> Option<MatchResult>, idx': seq<nat>)
    requires |ms| > 0
    requires forall i :: 0 <= i < |ms[1..]| && matchFn(ms[1..][i].queue).Some? ==> i in idx'
    ensures forall i :: 1 <= i < |ms| && matchFn(ms[i].queue).Some? ==> i in Shift(idx')
  {
    forall i | 1 <= i < |ms| && matchFn(ms[i].queue).Some?
      ensures i in Shift(idx')
    {
      assert ms[1..][i - 1] == ms[i];
      assert i - 1 in idx';
      var j :| 0 <= j < |idx'| && idx'[j] == i - 1;
      assert Shift(idx')[j] == i;
    }
  }

  /** The matchers built for a store: surviving orders visited by the reverse
      iterator (highest id first) and routed by market. */
  function Matchers(orders: map<OrderId, Order>): seq<Matcher>
  {
    RouteAll(ReverseVisit(orders))
  }

  /** ExecuteAndCancelExpired: the whole per-block step. Matching reads the
      store as it stands after the expiry pass; settlement starts only once
      every market has been matched. */
  function ExecuteAndCancelExpired(book: Book, env: Env, height: int): (r: Outcome<Book, ExecError>)
    ensures r.Done? ==> r.state.markets == book.markets
    ensures r.Done? ==> forall id :: id in book.orders && Expired(book.orders[id], height) ==> !env.ordK.rejects(id)
  {
    var expired := CollectExpired(book.orders, height);
    match CancelAll(book, env.ordK, expired)
    case Failed(b, e) => Failed(b, e)
    case Done(b1) =>
      var results := MatchAll(Matchers(b1.orders), env.matchFn);
      SettleFills(b1, env.rejects, Flatten(results))
  }

  /** The orders that go into matching are exactly the stored orders that have
      not expired: each sits in the one matcher of its market, every queued
      entry is such an order, and no order is queued twice. */
  lemma EnqueuePhase(book: Book, ordK: OrderKeeper, height: int)
    requires KeyedById(book.orders)
    requires CancelAll(book, ordK, CollectExpired(book.orders, height)).Done?
    ensures var live := CancelAll(book, ordK, CollectExpired(book.orders, height)).state.orders;
      && (forall id :: id in live <==> id in book.orders && !Expired(book.orders[id], height))
      && PerMarket(Matchers(live), ReverseVisit(live))
      && (forall id :: id in live ==> FindMatcher(Matchers(live), live[id].marketId).Some?)
      && (forall m, i, j :: 0 <= m < |Matchers(live)| && 0 <= i < j < |Matchers(live)[m].queue| ==>
            Matchers(live)[m].queue[i].id > Matchers(live)[m].queue[j].id)
  {
    var live := CancelAll(book, ordK, CollectExpired(book.orders, height)).state.orders;
    assert KeyedById(live);
    RouteAllIsPerMarket(ReverseVisit(live));
    EveryOrderHasMatcher(live);
    QueuesDescend(live);
  }

  /** Every stored order's market has a matcher. */
  lemma EveryOrderHasMatcher(orders: map<OrderId, Order>)
    ensures forall id :: id in orders ==> FindMatcher(Matchers(orders), orders[id].marketId).Some?
  {
    RouteAllIsPerMarket(ReverseVisit(orders));
    ReverseVisitCoversStore(orders);
  }

  /** The queue of a routed matcher is its market's queue. */
  lemma RoutedQueue(os: seq<Order>, m: nat)
    requires m < |RouteAll(os)|
    ensures RouteAll(os)[m].queue == MarketQueue(os, RouteAll(os)[m].marketId)
  {
    RouteAllIsPerMarket(os);
  }

  /** With orders keyed by id, every matcher's queue descends strictly by id. */
  lemma QueuesDescend(orders: map<OrderId, Order>)
    requires KeyedById(orders)
    ensures forall m, i, j :: 0 <= m < |Matchers(orders)| && 0 <= i < j < |Matchers(orders)[m].queue| ==>
      Matchers(orders)[m].queue[i].id > Matchers(orders)[m].queue[j].id
  {
    var os := ReverseVisit(orders);
    var ms := RouteAll(os);
    ReverseVisitDescends(orders);
    forall m | 0 <= m < |ms|
      ensures forall i, j :: 0 <= i < j < |ms[m].queue| ==> ms[m].queue[i].id > ms[m].queue[j].id
    {
      RoutedQueue(os, m);
      MarketQueueDescends(os, ms[m].marketId);
    }
  }

  /** `out` is the failure of cancelling `ids` in order: it names the first
      refused id, and the balances have received back the frozen coins of
      exactly the (stored) orders cancelled before it. */
  ghost predicate StopsAtFirstRefusal(book: Book, ordK: OrderKeeper, ids: seq<OrderId>, out: Outcome<Book, ExecError>)
  {
    var k := FirstRejection(ids, ordK.rejects);
    && k < |ids|
    && out.Failed?
    && out.error == CancelRejected(ids[k])
    && (forall i :: 0 <= i < k ==> ids[i] in book.orders)
    && out.state.balances == Released(book.balances, ordK, Lookup(book.orders, ids[..k]))
  }

  /** An expired order whose cancellation the order keeper refuses aborts the
      block before any fill is settled: the error names the lowest-id expired
      order it refuses, and the only balance changes are the frozen coins
      returned by the cancellations before it. */
  lemma RefusedExpiryAborts(book: Book, env: Env, height: int)
    requires exists id :: id in book.orders && Expired(book.orders[id], height) && env.ordK.rejects(id)
    ensures ExecuteAndCancelExpired(book, env, height).Failed?
    // the step's outcome is the expiry pass's: no matching or settling runs
    ensures ExecuteAndCancelExpired(book, env, height) == CancelAll(book, env.ordK, CollectExpired(book.orders, height))
    ensures StopsAtFirstRefusal(book, env.ordK, CollectExpired(book.orders, height), ExecuteAndCancelExpired(book, env, height))
  {
    var expired := CollectExpired(book.orders, height);
    var id :| id in book.orders && Expired(book.orders[id], height) && env.ordK.rejects(id);
    assert id in expired;
    ExpiredAreStored(book.orders, height);
    CancelAllStopsAtFirstRejection(book, env.ordK, expired);
    CancelAllReleases(book, env.ordK, expired);
    CancelFailureEndsStep(book, env, height);
  }

  lemma ExpiredAreStored(orders: map<OrderId, Order>, height: int)
    ensures forall i :: 0 <= i < |CollectExpired(orders, height)| ==> CollectExpired(orders, height)[i] in orders
  {
    var expired := CollectExpired(orders, height);
    forall i | 0 <= i < |expired|
      ensures expired[i] in orders
    {
      assert expired[i] in expired;
    }
  }

  /** A failed expiry pass is the block step's outcome: nothing after it runs. */
  lemma CancelFailureEndsStep(book: Book, env: Env, height: int)
    requires CancelAll(book, env.ordK, CollectExpired(book.orders, height)).Failed?
    ensures ExecuteAndCancelExpired(book, env, height) == CancelAll(book, env.ordK, CollectExpired(book.orders, height))
  {
  }
}

=== FILE: normalize.dfy ===
/** Fixed-point settlement arithmetic: prices carry `AssetDecimals` implied
    decimals, so the quote amount owed for `qty` base units at `price` is
    price * qty / 10^AssetDecimals, truncated. */
module Normalize {

  const AssetDecimals: nat := 8

  /** 10^AssetDecimals, written as a literal (the source computes it with a
      floating-point power; `DivisorIsPowerOfTen` shows the two agree). */
  const Divisor: nat := 100000000

  function Pow10(n: nat): (r: nat)
    ensures r > 0
  {
    if n == 0 then 1 else 10 * Pow10(n - 1)
  }

  lemma DivisorIsPowerOfTen()
    ensures Divisor == Pow10(AssetDecimals)
  {
    calc {
      Pow10(AssetDecimals);
      10 * Pow10(7);
      10 * (10 * Pow10(6));
      100 * (10 * Pow10(5));
      1000 * (10 * Pow10(4));
      10000 * (10 * Pow10(3));
      100000 * (10 * Pow10(2));
      1000000 * (10 * Pow10(1));
      10000000 * (10 * Pow10(0));
    }
  }

  /** The quote amount and whether it truncated to zero (the source's error
      "quantity too small to represent"). */
  datatype Normalized = Normalized(amount: nat, tooSmall: bool)

  /** Quote amount owed for `baseQuantity` units at `quotePrice`, rounded toward zero. */
  function NormalizeQuoteQuantity(quotePrice: nat, baseQuantity: nat): (r: Normalized)
    ensures r.amount * Divisor <= quotePrice * baseQuantity < (r.amount + 1) * Divisor
    ensures r.tooSmall <==> r.amount == 0
    ensures r.tooSmall <==> quotePrice * baseQuantity < Divisor
  {
    var res := (quotePrice * baseQuantity) / Divisor;
    Normalized(res, res == 0)
  }

  /** The floor bound pins the amount down uniquely. */
  lemma FloorIsUnique(x: nat, a: nat, b: nat)
    requires a * Divisor <= x < (a + 1) * Divisor
    requires b * Divisor <= x < (b + 1) * Divisor
    ensures a == b
  {
  }

  lemma ZeroQuantity(quotePrice: nat)
    ensures NormalizeQuoteQuantity(quotePrice, 0) == Normalized(0, true)
  {
  }

  lemma ZeroPrice(baseQuantity: nat)
    ensures NormalizeQuoteQuantity(0, baseQuantity) == Normalized(0, true)
  {
  }

  /** Exact multiples of 10^8 base units settle without rounding. */
  lemma {:induction false} WholeUnitsAreExact(quotePrice: nat, units: nat)
    ensures NormalizeQuoteQuantity(quotePrice, units * Divisor).amount == quotePrice * units
  {
    var r := NormalizeQuoteQuantity(quotePrice, units * Divisor);
    assert quotePrice * (units * Divisor) == (quotePrice * units) * Divisor;
    assert (quotePrice * units) * Divisor <= quotePrice * (units * Divisor) < (quotePrice * units + 1) * Divisor;
    FloorIsUnique(quotePrice * (units * Divisor), r.amount, quotePrice * units);
  }

  lemma {:induction false} MonotoneInQuantity(quotePrice: nat, q1: nat, q2: nat)
    requires q1 <= q2
    ensures NormalizeQuoteQuantity(quotePrice, q1).amount <= NormalizeQuoteQuantity(quotePrice, q2).amount
  {
    var r1 := NormalizeQuoteQuantity(quotePrice, q1).amount;
    var r2 := NormalizeQuoteQuantity(quotePrice, q2).amount;
    assert quotePrice * q1 <= quotePrice * q2 by {
      assert quotePrice * q2 == quotePrice * q1 + quotePrice * (q2 - q1);
    }
    assert r1 * Divisor < (r2 + 1) * Divisor;
  }

  lemma {:induction false} MonotoneInPrice(p1: nat, p2: nat, baseQuantity: nat)
    requires p1 <= p2
    ensures NormalizeQuoteQuantity(p1, baseQuantity).amount <= NormalizeQuoteQuantity(p2, baseQuantity).amount
  {
    var r1 := NormalizeQuoteQuantity(p1, baseQuantity).amount;
    var r2 := NormalizeQuoteQuantity(p2, baseQuantity).amount;
    assert p1 * baseQuantity <= p2 * baseQuantity by {
      assert p2 * baseQuantity == p1 * baseQuantity + (p2 - p1) * baseQuantity;
    }
    assert r1 * Divisor < (r2 + 1) * Divisor;
  }
}

=== FILE: oracle_params.dfy ===
/** The oracle module's registry of assets and their oracles, kept in the
    module parameters as a list: lookups return the first asset with a given
    code, edits rewrite every asset with that code in place, and additions
    append. Every edit is gated by the nominee check. */
module OracleParams {
  import opened Common

  datatype Oracle = Oracle(address: Address)

  datatype Asset = Asset(assetCode: string, baseAsset: string, quoteAsset: string, oracles: seq<Oracle>)

  datatype OracleError =
    | NotNominee(nominee: string)
    | AssetNotFound(assetCode: string)
    | OracleNotFound(address: Address, assetCode: string)
    | OracleExists(address: Address, assetCode: string)
    | AssetExists(assetCode: string)

  /** The position of the first asset with code `code`. */
  function FirstAsset(assets: seq<Asset>, code: string): (r: Option<nat>)
    ensures r.Some? ==> r.value < |assets| && assets[r.value].assetCode == code
    ensures r.Some? ==> forall j :: 0 <= j < r.value ==> assets[j].assetCode != code
    ensures r.None? <==> forall j :: 0 <= j < |assets| ==> assets[j].assetCode != code
  {
    if |assets| == 0 then None
    else if assets[0].assetCode == code then Some(0)
    else match FirstAsset(assets[1..], code)
      case None => None
      case Some(i) => Some(i + 1)
  }

  /** GetAsset: the first asset with code `code`, if any. */
  function GetAsset(assets: seq<Asset>, code: string): (r: Option<Asset>)
    ensures r.None? <==> forall a :: a in assets ==> a.assetCode != code
    ensures r.Some? ==> r.value in assets && r.value.assetCode == code
    ensures r.Some? ==> exists i :: (&& 0 <= i < |assets| && assets[i] == r.value
                                     && forall j :: 0 <= j < i ==> assets[j].assetCode != code)
  {
    match FirstAsset(assets, code)
    case None => None
    case Some(i) => Some(assets[i])
  }

  /** GetOracles: the oracle list of the first asset with code `code`. */
  function GetOracles(assets: seq<Asset>, code: string): (r: Result<seq<Oracle>, OracleError>)
    ensures r.Err? <==> GetAsset(assets, code).None?
    ensures r.Err? ==> r.error == AssetNotFound(code)
    ensures r.Ok? ==> r.value == GetAsset(assets, code).value.oracles
  {
    match GetAsset(assets, code)
    case None => Err(AssetNotFound(code))
    case Some(a) => Ok(a.oracles)
  }

  /** The first oracle with address `address`. */
  function FindOracle(oracles: seq<Oracle>, address: Address): (r: Option<Oracle>)
    ensures r.None? <==> forall o :: o in oracles ==> o.address != address
    ensures r.Some? ==> r.value in oracles && r.value.address == address
  {
    if |oracles| == 0 then None
    else if oracles[0].address == address then Some(oracles[0])
    else FindOracle(oracles[1..], address)
  }

  /** GetOracle: the oracle with address `address` among the oracles of the
      first asset with code `code`. */
  function GetOracle(assets: seq<Asset>, code: string, address: Address): (r: Result<Oracle, OracleError>)
    ensures GetAsset(assets, code).None? ==> r == Err(AssetNotFound(code))
    ensures GetAsset(assets, code).Some? ==> (
      var os := GetAsset(assets, code).value.oracles;
      && (r.Ok? <==> exists o :: o in os && o.address == address)
      && (r.Ok? ==> r.value in os && r.value.address == address)
      && (r.Err? ==> r.error == OracleNotFound(address, code)))
  {
    match GetOracles(assets, code)
    case Err(_) => Err(AssetNotFound(code))
    case Ok(os) =>
      match FindOracle(os, address)
      case None => Err(OracleNotFound(address, code))
      case Some(o) => Ok(o)
  }

  /** Every asset with code `code` rewritten by `f`; the rest as they were. */
  function UpdateWhere(assets: seq<Asset>, code: string, f: Asset -> Asset): (r: seq<Asset>)
    ensures |r| == |assets|
    ensures forall i :: 0 <= i < |assets| && assets[i].assetCode == code ==> r[i] == f(assets[i])
    ensures forall i :: 0 <= i < |assets| && assets[i].assetCode != code ==> r[i] == assets[i]
  {
    if |assets| == 0 then []
    else [if assets[0].assetCode == code then f(assets[0]) else assets[0]] + UpdateWhere(assets[1..], code, f)
  }

  /** AddOracle: after the nominee check and a check that the oracle is not
      already registered, appends one oracle to every asset with code `code`;
      fails when there is none. On failure the registry is unchanged. */
  function AddOracle(assets: seq<Asset>, isNominee: string -> bool, nominee: string, code: string, address: Address): (r: Result<seq<Asset>, OracleError>)
    ensures !isNominee(nominee) ==> r == Err(NotNominee(nominee))
    ensures isNominee(nominee) && GetOracle(assets, code, address).Ok? ==> r == Err(OracleExists(address, code))
    ensures isNominee(nominee) && GetAsset(assets, code).None? ==> r == Err(AssetNotFound(code))
    ensures r.Ok? <==> isNominee(nominee) && GetAsset(assets, code).Some? && GetOracle(assets, code, address).Err?
    ensures r.Ok? ==> |r.value| == |assets|
    ensures r.Ok? ==> forall i :: 0 <= i < |assets| && assets[i].assetCode == code ==>
      r.value[i] == assets[i].(oracles := assets[i].oracles + [Oracle(address)])
    ensures r.Ok? ==> forall i :: 0 <= i < |assets| && assets[i].assetCode != code ==> r.value[i] == assets[i]
  {
    if !isNominee(nominee) then Err(NotNominee(nominee))
    else if GetOracle(assets, code, address).Ok? then Err(OracleExists(address, code))
    else if FirstAsset(assets, code).None? then Err(AssetNotFound(code))
    else Ok(UpdateWhere(assets, code, (a: Asset) => a.(oracles := a.oracles + [Oracle(address)])))
  }

  /** SetOracles: replaces the oracle list of every asset with code `code`. */
  function SetOracles(assets: seq<Asset>, isNominee: string -> bool, nominee: string, code: string, oracles: seq<Oracle>): (r: Result<seq<Asset>, OracleError>)
    ensures !isNominee(nominee) ==> r == Err(NotNominee(nominee))
    ensures r.Ok? <==> isNominee(nominee) && GetAsset(assets, code).Some?
    ensures isNominee(nominee) && GetAsset(assets, code).None? ==> r == Err(AssetNotFound(code))
    ensures r.Ok? ==> |r.value| == |assets|
    ensures r.Ok? ==> forall i :: 0 <= i < |assets| && assets[i].assetCode == code ==>
      r.value[i] == assets[i].(oracles := oracles)
    ensures r.Ok? ==> forall i :: 0 <= i < |assets| && assets[i].assetCode != code ==> r.value[i] == assets[i]
  {
    if !isNominee(nominee) then Err(NotNominee(nominee))
    else if FirstAsset(assets, code).None? then Err(AssetNotFound(code))
    else Ok(UpdateWhere(assets, code, (a: Asset) => a.(oracles := oracles)))
  }

  /** SetAsset: replaces every asset with code `code` by `asset`. */
  function SetAsset(assets: seq<Asset>, isNominee: string -> bool, nominee: string, code: string, asset: Asset): (r: Result<seq<Asset>, OracleError>)
    ensures !isNominee(nominee) ==> r == Err(NotNominee(nominee))
    ensures r.Ok? <==> isNominee(nominee) && GetAsset(assets, code).Some?
    ensures isNominee(nominee) && GetAsset(assets, code).None? ==> r == Err(AssetNotFound(code))
    ensures r.Ok? ==> |r.value| == |assets|
    ensures r.Ok? ==> forall i :: 0 <= i < |assets| && assets[i].assetCode == code ==> r.value[i] == asset
    ensures r.Ok? ==> forall i :: 0 <= i < |assets| && assets[i].assetCode != code ==> r.value[i] == assets[i]
  {
    if !isNominee(nominee) then Err(NotNominee(nominee))
    else if FirstAsset(assets, code).None? then Err(AssetNotFound(code))
    else Ok(UpdateWhere(assets, code, (a: Asset) => asset))
  }

  /** AddAsset: appends `asset` when no asset has code `code`. The existence
      check is on the `code` argument, not on the asset's own code. */
  function AddAsset(assets: seq<Asset>, isNominee: string -> bool, nominee: string, code: string, asset: Asset): (r: Result<seq<Asset>, OracleError>)
    ensures !isNominee(nominee) ==> r == Err(NotNominee(nominee))
    ensures isNominee(nominee) && GetAsset(assets, code).Some? ==> r == Err(AssetExists(code))
    ensures r.Ok? <==> isNominee(nominee) && GetAsset(assets, code).None?
    ensures r.Ok? ==> r.value == assets + [asset]
  {
    if !isNominee(nominee) then Err(NotNominee(nominee))
    else if GetAsset(assets, code).Some? then Err(AssetExists(code))
    else Ok(assets + [asset])
  }

  // ---------- How the edits read back ----------

  /** An edit that keeps every asset's code leaves every lookup by code
      pointing at the same position. */
  lemma {:induction false} FirstAssetUnderUpdate(assets: seq<Asset>, code: string, f: Asset -> Asset, c: string)
    requires forall a :: a in assets && a.assetCode == code ==> f(a).assetCode == code
    ensures FirstAsset(UpdateWhere(assets, code, f), c) == FirstAsset(assets, c)
  {
    if |assets| > 0 {
      var r := UpdateWhere(assets, code, f);
      assert r[1..] == UpdateWhere(assets[1..], code, f);
      assert forall a :: a in assets[1..] ==> a in assets;
      FirstAssetUnderUpdate(assets[1..], code, f, c);
    }
  }

  /** After AddOracle the new oracle is found under the asset. */
  lemma AddOracleThenGetOracle(assets: seq<Asset>, isNominee: string -> bool, nominee: string, code: string, address: Address)
    requires AddOracle(assets, isNominee, nominee, code, address).Ok?
    ensures GetOracle(AddOracle(assets, isNominee, nominee, code, address).value, code, address) == Ok(Oracle(address))
  {
    var f := (a: Asset) => a.(oracles := a.oracles + [Oracle(address)]);
    var r := AddOracle(assets, isNominee, nominee, code, address).value;
    assert r == UpdateWhere(assets, code, f);
    FirstAssetUnderUpdate(assets, code, f, code);
    var i := FirstAsset(assets, code).value;
    var os := assets[i].oracles;
    assert GetAsset(r, code) == Some(r[i]);
    assert r[i].oracles == os + [Oracle(address)];
    assert FindOracle(os, address).None?;
    FindOracleAppend(os, address);
  }

  lemma {:induction false} FindOracleAppend(os: seq<Oracle>, address: Address)
    requires FindOracle(os, address).None?
    ensures FindOracle(os + [Oracle(address)], address) == Some(Oracle(address))
  {
    if |os| > 0 {
      assert (os + [Oracle(address)])[1..] == os[1..] + [Oracle(address)];
      FindOracleAppend(os[1..], address);
    } else {
      assert os + [Oracle(address)] == [Oracle(address)];
    }
  }

  /** Adding the same oracle twice: the second attempt reports that it exists. */
  lemma AddOracleTwiceFails(assets: seq<Asset>, isNominee: string -> bool, nominee: string, code: string, address: Address)
    requires AddOracle(assets, isNominee, nominee, code, address).Ok?
    ensures AddOracle(AddOracle(assets, isNominee, nominee, code, address).value, isNominee, nominee, code, address)
      == Err(OracleExists(address, code))
  {
    AddOracleThenGetOracle(assets, isNominee, nominee, code, address);
  }

  /** After SetOracles the asset's oracle list reads back as given. */
  lemma SetOraclesThenGetOracles(assets: seq<Asset>, isNominee: string -> bool, nominee: string, code: string, oracles: seq<Oracle>)
    requires SetOracles(assets, isNominee, nominee, code, oracles).Ok?
    ensures GetOracles(SetOracles(assets, isNominee, nominee, code, oracles).value, code) == Ok(oracles)
  {
    var f := (a: Asset) => a.(oracles := oracles);
    assert SetOracles(assets, isNominee, nominee, code, oracles).value == UpdateWhere(assets, code, f);
    FirstAssetUnderUpdate(assets, code, f, code);
  }

  /** After SetAsset with an asset carrying the same code, the lookup by that
      code returns it. */
  lemma SetAssetThenGetAsset(assets: seq<Asset>, isNominee: string -> bool, nominee: string, code: string, asset: Asset)
    requires asset.assetCode == code
    requires SetAsset(assets, isNominee, nominee, code, asset).Ok?
    ensures GetAsset(SetAsset(assets, isNominee, nominee, code, asset).value, code) == Some(asset)
  {
    var f := (a: Asset) => asset;
    assert SetAsset(assets, isNominee, nominee, code, asset).value == UpdateWhere(assets, code, f);
    FirstAssetUnderUpdate(assets, code, f, code);
  }

  /** After AddAsset with an asset carrying the code checked, the lookup by
      that code returns it, and the lookups of every other code are unchanged. */
  lemma AddAssetThenGetAsset(assets: seq<Asset>, isNominee: string -> bool, nominee: string, code: string, asset: Asset)
    requires asset.assetCode == code
    requires AddAsset(assets, isNominee, nominee, code, asset).Ok?
    ensures GetAsset(AddAsset(assets, isNominee, nominee, code, asset).value, code) == Some(asset)
    ensures forall c :: c != code ==> GetAsset(AddAsset(assets, isNominee, nominee, code, asset).value, c) == GetAsset(assets, c)
  {
    var r := assets + [asset];
    FirstAssetAppend(assets, asset, code);
    forall c | c != code
      ensures GetAsset(r, c) == GetAsset(assets, c)
    {
      FirstAssetAppend(assets, asset, c);
    }
  }

  lemma {:induction false} FirstAssetAppend(assets: seq<Asset>, asset: Asset, c: string)
    ensures FirstAsset(assets, c).Some? ==> FirstAsset(assets + [asset], c) == FirstAsset(assets, c)
    ensures FirstAsset(assets, c).None? && asset.assetCode == c ==> FirstAsset(assets + [asset], c) == Some(|assets|)
    ensures FirstAsset(assets, c).None? && asset.assetCode != c ==> FirstAsset(assets + [asset], c).None?
  {
    if |assets| > 0 {
      assert (assets + [asset])[1..] == assets[1..] + [asset];
      FirstAssetAppend(assets[1..], asset, c);
    } else {
      assert assets + [asset] == [asset];
    }
  }
}

=== FILE: order_msgs.dfy ===
/** The order module's two transaction messages, post and cancel: their
    stateless validation, their signers, and their routing metadata. */
module OrderMsgs {
  import opened Common
  import opened Orders

  /** The wire width of a post's time in force. */
  type Uint16 = x: int | 0 <= x < 0x1_0000

  /** The largest time in force, in blocks, that a post may ask for. */
  const MaxTimeInForce: nat := 600

  datatype Msg =
    | Post(owner: Address, marketId: MarketId, direction: Direction, price: nat, quantity: nat, timeInForce: Uint16)
    | Cancel(owner: Address, orderId: OrderId)

  /** The SDK error codes the validators use. */
  datatype Code = Unauthorized | InvalidCoins | Internal

  datatype Rejection =
    | UndefinedMarket
    | ZeroPrice
    | ZeroQuantity
    | ZeroTimeInForce
    | TimeInForceTooLarge
    | EmptyOwner
    | UndefinedOrder

  function CodeOf(reason: Rejection): (c: Code)
    ensures c == Unauthorized <==> reason in {UndefinedMarket, EmptyOwner}
    ensures c == InvalidCoins <==> reason in {ZeroPrice, ZeroQuantity}
  {
    match reason
    case UndefinedMarket => Unauthorized
    case EmptyOwner => Unauthorized
    case ZeroPrice => InvalidCoins
    case ZeroQuantity => InvalidCoins
    case _ => Internal
  }

  /** Entity id 0 is the undefined id. */
  predicate IsDefined(id: nat)
  {
    id != 0
  }

  /** The conditions a post must meet, each on its own. */
  predicate PostIsValid(m: Msg)
    requires m.Post?
  {
    IsDefined(m.marketId) && m.price != 0 && m.quantity != 0 && 0 < m.timeInForce <= MaxTimeInForce
  }

  /** ValidateBasic: the checks run in a fixed order and the first that fails
      names the error; None is the nil error. */
  function ValidateBasic(m: Msg): (r: Option<Rejection>)
    ensures m.Post? ==> (r.None? <==> PostIsValid(m))
    ensures m.Post? && !IsDefined(m.marketId) ==> r == Some(UndefinedMarket)
    ensures m.Post? && IsDefined(m.marketId) && m.price == 0 ==> r == Some(ZeroPrice)
    ensures m.Post? && IsDefined(m.marketId) && m.price != 0 && m.quantity == 0 ==> r == Some(ZeroQuantity)
    ensures m.Post? && IsDefined(m.marketId) && m.price != 0 && m.quantity != 0 && m.timeInForce == 0 ==> r == Some(ZeroTimeInForce)
    ensures m.Post? && r == Some(TimeInForceTooLarge) <==> m.Post? && IsDefined(m.marketId) && m.price != 0 && m.quantity != 0 && m.timeInForce > MaxTimeInForce
    ensures m.Cancel? ==> (r.None? <==> |m.owner| != 0 && IsDefined(m.orderId))
    ensures m.Cancel? && |m.owner| == 0 ==> r == Some(EmptyOwner)
    ensures m.Cancel? && |m.owner| != 0 && !IsDefined(m.orderId) ==> r == Some(UndefinedOrder)
    ensures r.Some? && m.Post? ==> r.value in {UndefinedMarket, ZeroPrice, ZeroQuantity, ZeroTimeInForce, TimeInForceTooLarge}
    ensures r.Some? && m.Cancel? ==> r.value in {EmptyOwner, UndefinedOrder}
  {
    match m
    case Post(_, marketId, _, price, quantity, tif) =>
      if !IsDefined(marketId) then Some(UndefinedMarket)
      else if price == 0 then Some(ZeroPrice)
      else if quantity == 0 then Some(ZeroQuantity)
      else if tif == 0 then Some(ZeroTimeInForce)
      else if tif > MaxTimeInForce then Some(TimeInForceTooLarge)
      else None
    case Cancel(owner, orderId) =>
      if |owner| == 0 then Some(EmptyOwner)
      else if !IsDefined(orderId) then Some(UndefinedOrder)
      else None
  }

  function Route(m: Msg): string
  {
    "order"
  }

  function Type(m: Msg): string
  {
    match m
    case Post(_, _, _, _, _, _) => "post"
    case Cancel(_, _) => "cancel"
  }

  function GetSigners(m: Msg): seq<Address>
  {
    [m.owner]
  }

  /** Both messages route to the order module under distinct types, and the
      owner is the one and only signer. */
  lemma Metadata(m: Msg)
    ensures Route(m) == "order"
    ensures Type(m) == (if m.Post? then "post" else "cancel")
    ensures GetSigners(m) == [m.owner]
  {
  }

  /** A post's validity does not depend on its owner or direction: an empty
      owner passes the post's validation. */
  lemma PostIgnoresOwnerAndDirection(m: Msg, owner: Address, direction: Direction)
    requires m.Post?
    ensures ValidateBasic(m.(owner := owner, direction := direction)) == ValidateBasic(m)
  {
  }

  /** The time-in-force window is exactly 1..600 blocks. */
  lemma TimeInForceBounds(m: Msg)
    requires m.Post? && IsDefined(m.marketId) && m.price != 0 && m.quantity != 0
    ensures ValidateBasic(m.(timeInForce := 1)).None?
    ensures ValidateBasic(m.(timeInForce := 600)).None?
    ensures ValidateBasic(m.(timeInForce := 601)) == Some(TimeInForceTooLarge)
    ensures ValidateBasic(m.(timeInForce := 0)) == Some(ZeroTimeInForce)
  {
  }
}

=== FILE: order_querier.dfy ===
/** The order list query: a callback, run over the orders an iterator visits,
    that keeps the orders passing the market, status and creation-time filters
    and stops once a page is full; and the next-page cursor computed from what
    it collected. */
module OrderQuerier {
  import opened Common

  /** The fields of a stored order the query reads. */
  datatype ListedOrder = ListedOrder(id: nat, marketId: nat, status: string, createdTime: int)

  /** A list request; empty filter lists and zero time bounds are "no
      filter", and a zero limit is "no limit". */
  datatype ListQueryRequest = ListQueryRequest(
    owner: Address,
    start: nat,
    marketIds: seq<nat>,
    statuses: seq<string>,
    unixTimeAfter: int,
    unixTimeBefore: int,
    limit: int)

  /** The collected page and the id of the last order put on it (0 before any). */
  datatype Acc = Acc(orders: seq<ListedOrder>, lastId: nat)

  /** The filters as the callback applies them, rejecting on the first that
      fails. */
  predicate Keep(req: ListQueryRequest, o: ListedOrder)
  {
    if |req.marketIds| > 0 && o.marketId !in req.marketIds then false
    else if |req.statuses| > 0 && o.status !in req.statuses then false
    else if req.unixTimeAfter != 0 && o.createdTime < req.unixTimeAfter then false
    else if req.unixTimeBefore != 0 && o.createdTime > req.unixTimeBefore then false
    else true
  }

  /** The same filters stated declaratively: the order's market and status
      are among those asked for (when any are), and its creation time lies in
      the closed window whose non-zero ends are given. */
  ghost predicate InWindow(req: ListQueryRequest, o: ListedOrder)
  {
    && (req.marketIds == [] || exists i :: 0 <= i < |req.marketIds| && req.marketIds[i] == o.marketId)
    && (req.statuses == [] || exists i :: 0 <= i < |req.statuses| && req.statuses[i] == o.status)
    && (req.unixTimeAfter == 0 || req.unixTimeAfter <= o.createdTime)
    && (req.unixTimeBefore == 0 || o.createdTime <= req.unixTimeBefore)
  }

  lemma KeepIsInWindow(req: ListQueryRequest, o: ListedOrder)
    ensures Keep(req, o) <==> InWindow(req, o)
  {
    if o.marketId in req.marketIds {
      var i :| 0 <= i < |req.marketIds| && req.marketIds[i] == o.marketId;
    }
    if o.status in req.statuses {
      var i :| 0 <= i < |req.statuses| && req.statuses[i] == o.status;
    }
  }

  /** The iteration callback: a rejected order is skipped and iteration goes
      on; a kept order is appended and becomes the last id, and iteration goes
      on only while there is no limit or the page is below it. */
  function Callback(req: ListQueryRequest, acc: Acc, o: ListedOrder): (r: (Acc, bool))
    ensures !Keep(req, o) ==> r == (acc, true)
    ensures Keep(req, o) ==> r.0 == Acc(acc.orders + [o], o.id)
    ensures Keep(req, o) ==> (r.1 <==> req.limit == 0 || |acc.orders| + 1 < req.limit)
  {
    if !Keep(req, o) then (acc, true)
    else
      var orders := acc.orders + [o];
      (Acc(orders, o.id), req.limit == 0 || |orders| < req.limit)
  }

  /** Every visited order that passes the filters, in visiting order. */
  function Kept(req: ListQueryRequest, visit: seq<ListedOrder>): seq<ListedOrder>
  {
    Filter(visit, o => Keep(req, o))
  }

  /** How many kept orders make a page: all of them without a limit; with a
      limit, at most that many, and at most one when the limit is negative
      (the callback then stops after the first kept order). */
  function PageSize(req: ListQueryRequest, kept: nat): (n: nat)
    ensures n <= kept
    ensures req.limit > 0 ==> n <= req.limit
    ensures req.limit == 0 ==> n == kept
  {
    if req.limit == 0 then kept
    else if req.limit < 0 then (if kept == 0 then 0 else 1)
    else if kept < req.limit then kept
    else req.limit
  }

  /** The page the query returns: the first PageSize kept orders. */
  function Page(req: ListQueryRequest, visit: seq<ListedOrder>): seq<ListedOrder>
  {
    var kept := Kept(req, visit);
    kept[..PageSize(req, |kept|)]
  }

  function LastId(orders: seq<ListedOrder>): nat
  {
    if |orders| == 0 then 0 else orders[|orders| - 1].id
  }

  lemma KeptPrefixStep(req: ListQueryRequest, visit: seq<ListedOrder>, i: nat)
    requires i < |visit|
    ensures Kept(req, visit[..i + 1]) == Kept(req, visit[..i]) + (if Keep(req, visit[i]) then [visit[i]] else [])
  {
    assert visit[..i + 1] == visit[..i] + [visit[i]];
    FilterAppend(visit[..i], [visit[i]], o => Keep(req, o));
  }

  lemma KeptSplit(req: ListQueryRequest, visit: seq<ListedOrder>, i: nat)
    requires i <= |visit|
    ensures Kept(req, visit) == Kept(req, visit[..i]) + Kept(req, visit[i..])
  {
    assert visit == visit[..i] + visit[i..];
    FilterAppend(visit[..i], visit[i..], o => Keep(req, o));
  }

  /** Runs the callback over the visiting order until it asks to stop. */
  method Iterate(req: ListQueryRequest, visit: seq<ListedOrder>) returns (acc: Acc)
    ensures acc.orders == Page(req, visit)
    ensures acc.lastId == LastId(acc.orders)
  {
    acc := Acc([], 0);
    var i := 0;
    while i < |visit|
      invariant 0 <= i <= |visit|
      invariant acc.orders == Kept(req, visit[..i])
      invariant acc.lastId == LastId(acc.orders)
      invariant req.limit == 0 || (req.limit > 0 && |acc.orders| < req.limit) || (req.limit < 0 && |acc.orders| == 0)
    {
      KeptPrefixStep(req, visit, i);
      var step := Callback(req, acc, visit[i]);
      acc := step.0;
      if !step.1 {
        KeptSplit(req, visit, i + 1);
        assert acc.orders == Kept(req, visit)[..|acc.orders|];
        return;
      }
      i := i + 1;
    }
    assert visit[..i] == visit;
  }

  /** The three ways the keeper can visit orders, highest id first. */
  datatype Iterators = Iterators(
    reverseAll: seq<ListedOrder>,
    reverseFrom: nat -> seq<ListedOrder>,
    byOwner: Address -> seq<ListedOrder>)

  /** With no owner the store is walked in reverse, from `start` when it is
      defined; with an owner, that owner's orders are walked. */
  function Visit(req: ListQueryRequest, it: Iterators): (visit: seq<ListedOrder>)
    ensures |req.owner| != 0 ==> visit == it.byOwner(req.owner)
    ensures |req.owner| == 0 && req.start != 0 ==> visit == it.reverseFrom(req.start)
    ensures |req.owner| == 0 && req.start == 0 ==> visit == it.reverseAll
  {
    if |req.owner| == 0 then
      if req.start != 0 then it.reverseFrom(req.start) else it.reverseAll
    else it.byOwner(req.owner)
  }

  datatype ListQueryResult = ListQueryResult(nextId: int, orders: seq<ListedOrder>)

  /** queryList after decoding: collects a page and sets the cursor. A full
      page points the cursor at the predecessor of its last id; otherwise the
      cursor is the predecessor of the undefined id. `dec` is the entity id's
      predecessor, whose definition is not part of this model. */
  method QueryList(req: ListQueryRequest, it: Iterators, dec: nat -> int) returns (res: ListQueryResult)
    ensures res.orders == Page(req, Visit(req, it))
    ensures req.limit == 0 || |res.orders| < req.limit ==> res.nextId == dec(0)
    ensures req.limit != 0 && |res.orders| >= req.limit ==> res.nextId == dec(LastId(res.orders))
  {
    var acc := Iterate(req, Visit(req, it));
    var lastId := acc.lastId;
    if req.limit == 0 || |acc.orders| < req.limit {
      lastId := 0;
    }
    res := ListQueryResult(dec(lastId), acc.orders);
  }

  // ---------- What a page is ----------

  /** A page is a prefix of the kept orders; every order on it passes the
      filters; and it stops short of the kept orders only when it is full. */
  lemma PageIsPrefixOfKept(req: ListQueryRequest, visit: seq<ListedOrder>)
    ensures var kept := Kept(req, visit);
      var page := Page(req, visit);
      && page == kept[..|page|]
      && (forall i :: 0 <= i < |page| ==> InWindow(req, page[i]))
      && (|page| < |kept| ==> req.limit != 0 && |page| == (if req.limit > 0 then req.limit else 1))
  {
    var kept := Kept(req, visit);
    var page := Page(req, visit);
    forall i | 0 <= i < |page|
      ensures InWindow(req, page[i])
    {
      assert page[i] in kept;
      KeepIsInWindow(req, page[i]);
    }
  }

  /** The kept orders are exactly the visited orders inside the window. */
  lemma KeptIsWindow(req: ListQueryRequest, visit: seq<ListedOrder>)
    ensures forall o :: o in Kept(req, visit) <==> o in visit && InWindow(req, o)
  {
    forall o
      ensures o in Kept(req, visit) <==> o in visit && InWindow(req, o)
    {
      KeepIsInWindow(req, o);
    }
  }

  /** With a positive limit the page never holds more than the limit; without
      one it holds every kept order. */
  lemma PageRespectsLimit(req: ListQueryRequest, visit: seq<ListedOrder>)
    ensures req.limit > 0 ==> |Page(req, visit)| <= req.limit
    ensures req.limit == 0 ==> Page(req, visit) == Kept(req, visit)
  {
  }
}

=== FILE: orders.dfy ===
/** Orders of the spot exchange and the order store's iteration order.
    The store is keyed by entity id and iterates in ascending id order; the
    reverse iterator visits the same keys in descending order. */
module Orders {
  import opened Common

  /** Entity ids are unsigned; id 0 is "undefined". */
  type OrderId = nat
  type MarketId = nat

  datatype Direction = Bid | Ask

  datatype Order = Order(
    id: OrderId,
    owner: Address,
    marketId: MarketId,
    direction: Direction,
    price: nat,          // quote per base unit, 8 implied decimals
    quantity: nat,       // remaining base quantity
    createdBlock: int,
    timeInForceBlocks: nat)

  datatype Market = Market(id: MarketId, baseAssetDenom: Denom, quoteAssetDenom: Denom)

  /** Every order is stored under its own id. */
  ghost predicate KeyedById(orders: map<OrderId, Order>)
  {
    forall id :: id in orders ==> orders[id].id == id
  }

  ghost predicate StrictlyIncreasing(s: seq<nat>)
  {
    forall i, j :: 0 <= i < j < |s| ==> s[i] < s[j]
  }

  /** A non-empty set of naturals has a least element: descend from any member
      to a smaller one until none is left. */
  lemma {:induction false} MinimumExists(s: set<nat>, y: nat)
    requires y in s
    ensures exists m :: m in s && forall x :: x in s ==> m <= x
    decreases y
  {
    if !(forall x :: x in s ==> y <= x) {
      var z :| z in s && z < y;
      MinimumExists(s, z);
    }
  }

  /** The least element of a non-empty set of ids. */
  function Least(s: set<nat>): (m: nat)
    requires s != {}
    ensures m in s
    ensures forall x :: x in s ==> m <= x
  {
    var y :| y in s;
    MinimumExists(s, y);
    var m :| m in s && forall x :: x in s ==> m <= x;
    m
  }

  /** The ids of `s` in ascending order: the order of the store's iterator. */
  function Ascending(s: set<nat>): (r: seq<nat>)
    ensures |r| == |s|
    ensures forall x :: x in r <==> x in s
    ensures StrictlyIncreasing(r)
    decreases |s|
  {
    if s == {} then []
    else
      var m := Least(s);
      var rest := Ascending(s - {m});
      assert forall i :: 0 <= i < |rest| ==> m < rest[i] by {
        forall i | 0 <= i < |rest|
          ensures m < rest[i]
        {
          assert rest[i] in s - {m};
        }
      }
      [m] + rest
  }

  /** The store's reverse iterator: ids in descending order. */
  function Descending(s: set<nat>): (r: seq<nat>)
    ensures |r| == |s|
    ensures forall x :: x in r <==> x in s
    ensures forall i, j :: 0 <= i < j < |r| ==> r[i] > r[j]
  {
    var a := Ascending(s);
    var r := Reverse(a);
    assert forall x :: x in r <==> x in a by {
      forall x
        ensures x in r <==> x in a
      {
        if x in a {
          var i :| 0 <= i < |a| && a[i] == x;
          assert r[|a| - 1 - i] == x;
        }
      }
    }
    r
  }

  /** Distinct ids can be read off a strictly ordered sequence. */
  lemma DescendingIsDistinct(s: set<nat>)
    ensures forall i, j :: 0 <= i < j < |Descending(s)| ==> Descending(s)[i] != Descending(s)[j]
  {
  }

  /** The orders stored under `ids`, in the order of `ids`. */
  function Lookup(orders: map<OrderId, Order>, ids: seq<OrderId>): (r: seq<Order>)
    requires forall i :: 0 <= i < |ids| ==> ids[i] in orders
    ensures |r| == |ids|
    ensures forall i :: 0 <= i < |ids| ==> r[i] == orders[ids[i]]
  {
    if |ids| == 0 then [] else [orders[ids[0]]] + Lookup(orders, ids[1..])
  }

  /** The orders visited by the reverse iterator, highest id first. */
  function ReverseVisit(orders: map<OrderId, Order>): (r: seq<Order>)
    ensures |r| == |orders|
  {
    var ids := Descending(orders.Keys);
    assert forall i :: 0 <= i < |ids| ==> ids[i] in orders by {
      forall i | 0 <= i < |ids|
        ensures ids[i] in orders
      {
        assert ids[i] in ids;
      }
    }
    Lookup(orders, ids)
  }

  /** The reverse visit is the lookup of the descending keys, all of them stored. */
  lemma ReverseVisitIsLookup(orders: map<OrderId, Order>)
    ensures forall i :: 0 <= i < |Descending(orders.Keys)| ==> Descending(orders.Keys)[i] in orders
    ensures ReverseVisit(orders) == Lookup(orders, Descending(orders.Keys))
  {
    var ids := Descending(orders.Keys);
    forall i | 0 <= i < |ids|
      ensures ids[i] in orders
    {
      assert ids[i] in ids;
    }
  }

  /** The reverse iterator visits every stored order and only stored orders. */
  lemma ReverseVisitCoversStore(orders: map<OrderId, Order>)
    ensures forall id :: id in orders ==> orders[id] in ReverseVisit(orders)
    ensures forall i :: 0 <= i < |ReverseVisit(orders)| ==> ReverseVisit(orders)[i] in orders.Values
  {
    var ids := Descending(orders.Keys);
    var r := ReverseVisit(orders);
    ReverseVisitIsLookup(orders);
    forall id | id in orders
      ensures orders[id] in r
    {
      assert id in ids;
      var i :| 0 <= i < |ids| && ids[i] == id;
      assert r[i] == orders[id];
    }
    forall i | 0 <= i < |r|
      ensures r[i] in orders.Values
    {
      assert r[i] == orders[ids[i]];
    }
  }

  /** Ids being keys, the reverse iterator visits orders in strictly descending
      id order, so no order is visited twice. */
  lemma ReverseVisitDescends(orders: map<OrderId, Order>)
    requires KeyedById(orders)
    ensures forall i, j :: 0 <= i < j < |ReverseVisit(orders)| ==>
      ReverseVisit(orders)[i].id > ReverseVisit(orders)[j].id
  {
    var ids := Descending(orders.Keys);
    var r := ReverseVisit(orders);
    ReverseVisitIsLookup(orders);
    forall i, j | 0 <= i < j < |r|
      ensures r[i].id > r[j].id
    {
      assert r[i] == orders[ids[i]] && r[j] == orders[ids[j]];
      assert ids[i] > ids[j];
    }
  }
}

=== FILE: settlement.dfy ===
/** Settlement of matcher fills: crediting the bank balances of the order
    owners and reducing or deleting the filled orders. */
module Settlement {
  import opened Common
  import opened Orders
  import opened Normalize

  /** One order's share of a market's batch: filled plus unfilled is the
      order's quantity before matching. */
  datatype Fill = Fill(orderId: OrderId, qtyFilled: nat, qtyUnfilled: nat)

  /** A market's non-null match result: one clearing price and its fills. */
  datatype MatchResult = MatchResult(clearingPrice: nat, fills: seq<Fill>)

  datatype Holding = Holding(owner: Address, denom: Denom)

  /** The state settlement reads and writes: the order store, the market
      registry and the bank's balances. */
  datatype Book = Book(
    orders: map<OrderId, Order>,
    markets: map<MarketId, Market>,
    balances: map<Holding, nat>)

  datatype ExecError =
    | OrderNotFound(orderId: OrderId)
    | MarketNotFound(marketId: MarketId)
    | CreditRejected(holding: Holding, amount: nat)
    | CancelRejected(orderId: OrderId)
    | Panic(reason: string)

  /** The bank keeper's failure conditions for AddCoins (invalid denomination,
      overflow) are not part of this model: `rejects` decides them. */
  type CreditPolicy = (Holding, nat) -> bool

  function Balance(balances: map<Holding, nat>, h: Holding): nat
  {
    if h in balances then balances[h] else 0
  }

  /** AddCoins: add `amount` to one holding, unless the bank rejects it. */
  function Credit(book: Book, h: Holding, amount: nat, rejects: CreditPolicy): (r: Outcome<Book, ExecError>)
    ensures rejects(h, amount) ==> r == Failed(book, CreditRejected(h, amount))
    ensures !rejects(h, amount) ==> r.Done?
    ensures r.Done? ==> r.state.orders == book.orders && r.state.markets == book.markets
    ensures r.Done? ==>
      forall g :: Balance(r.state.balances, g) == Balance(book.balances, g) + (if g == h then amount else 0)
  {
    if rejects(h, amount) then Failed(book, CreditRejected(h, amount))
    else Done(book.(balances := book.balances[h := Balance(book.balances, h) + amount]))
  }

  /** The quote refund a buyer is owed when the batch clears below the bid:
      the price difference on the filled quantity, rounded down; zero when
      there is no difference or when it rounds to nothing. */
  function BidRefund(bidPrice: nat, clearingPrice: nat, qtyFilled: nat): (refund: nat)
    ensures clearingPrice >= bidPrice ==> refund == 0
    ensures clearingPrice < bidPrice ==>
      refund * Divisor <= (bidPrice - clearingPrice) * qtyFilled < (refund + 1) * Divisor
  {
    if clearingPrice < bidPrice then NormalizeQuoteQuantity(bidPrice - clearingPrice, qtyFilled).amount
    else 0
  }

  /** The quote proceeds of a sale: clearing price times filled quantity,
      rounded down. */
  function AskProceeds(clearingPrice: nat, qtyFilled: nat): (proceeds: nat)
    ensures proceeds * Divisor <= clearingPrice * qtyFilled < (proceeds + 1) * Divisor
  {
    NormalizeQuoteQuantity(clearingPrice, qtyFilled).amount
  }

  /** `after` is `before` with `a1` added to holding `h1` and `a2` added to
      holding `h2` (both to the same holding when they coincide), and every
      other holding unchanged. */
  ghost predicate CreditedTwice(before: map<Holding, nat>, after: map<Holding, nat>,
                                h1: Holding, a1: nat, h2: Holding, a2: nat)
  {
    forall h :: Balance(after, h) == Balance(before, h)
      + (if h == h1 then a1 else 0) + (if h == h2 then a2 else 0)
  }

  /** The order after a fill: deleted when nothing is left unfilled, otherwise
      stored again with only its quantity changed. */
  function ReduceOrder(orders: map<OrderId, Order>, ord: Order, qtyUnfilled: nat): (r: map<OrderId, Order>)
    ensures qtyUnfilled == 0 ==> ord.id !in r && forall id :: id in orders && id != ord.id ==> id in r && r[id] == orders[id]
    ensures qtyUnfilled != 0 ==> ord.id in r && r[ord.id] == ord.(quantity := qtyUnfilled)
    ensures forall id :: id != ord.id ==> (id in r <==> id in orders) && (id in r ==> r[id] == orders[id])
  {
    if qtyUnfilled == 0 then orders - {ord.id} else orders[ord.id := ord.(quantity := qtyUnfilled)]
  }

  /** ExecuteFill: settle one fill at the batch's clearing price. */
  function ExecuteFill(book: Book, rejects: CreditPolicy, clearingPrice: nat, f: Fill): (r: Outcome<Book, ExecError>)
    // a fill for an unknown order fails before anything is credited
    ensures f.orderId !in book.orders ==> r == Failed(book, OrderNotFound(f.orderId))
    ensures f.orderId in book.orders && book.orders[f.orderId].marketId !in book.markets ==>
      r == Failed(book, MarketNotFound(book.orders[f.orderId].marketId))
    // a sell whose proceeds truncate to zero is fatal, never a silent loss
    ensures (&& f.orderId in book.orders && book.orders[f.orderId].direction == Ask
             && book.orders[f.orderId].marketId in book.markets
             && clearingPrice * f.qtyFilled < Divisor) ==>
      r.Failed? && r.error.Panic? && r.state == book
    // a buy settles whenever the bank accepts its credits, even if the refund rounds to zero
    ensures (&& f.orderId in book.orders && book.orders[f.orderId].direction == Bid
             && book.orders[f.orderId].marketId in book.markets
             && !rejects(Holding(book.orders[f.orderId].owner,
                                 book.markets[book.orders[f.orderId].marketId].baseAssetDenom), f.qtyFilled)
             && (|| BidRefund(book.orders[f.orderId].price, clearingPrice, f.qtyFilled) == 0
                 || !rejects(Holding(book.orders[f.orderId].owner,
                                     book.markets[book.orders[f.orderId].marketId].quoteAssetDenom),
                             BidRefund(book.orders[f.orderId].price, clearingPrice, f.qtyFilled)))) ==>
      r.Done?
    ensures (&& f.orderId in book.orders && book.orders[f.orderId].direction == Ask
             && book.orders[f.orderId].marketId in book.markets
             && 0 < AskProceeds(clearingPrice, f.qtyFilled)
             && !rejects(Holding(book.orders[f.orderId].owner,
                                 book.markets[book.orders[f.orderId].marketId].quoteAssetDenom),
                         AskProceeds(clearingPrice, f.qtyFilled))) ==>
      r.Done?
    // a rejected AddCoins fails the fill, and the order is neither reduced nor deleted
    ensures (&& f.orderId in book.orders && book.orders[f.orderId].direction == Bid
             && book.orders[f.orderId].marketId in book.markets) ==>
      var base := Holding(book.orders[f.orderId].owner, book.markets[book.orders[f.orderId].marketId].baseAssetDenom);
      rejects(base, f.qtyFilled) ==> r == Failed(book, CreditRejected(base, f.qtyFilled))
    ensures (&& f.orderId in book.orders && book.orders[f.orderId].direction == Bid
             && book.orders[f.orderId].marketId in book.markets) ==>
      var base := Holding(book.orders[f.orderId].owner, book.markets[book.orders[f.orderId].marketId].baseAssetDenom);
      var quote := Holding(book.orders[f.orderId].owner, book.markets[book.orders[f.orderId].marketId].quoteAssetDenom);
      var refund := BidRefund(book.orders[f.orderId].price, clearingPrice, f.qtyFilled);
      (!rejects(base, f.qtyFilled) && 0 < refund && rejects(quote, refund)) ==>
        && r.Failed? && r.error == CreditRejected(quote, refund)
        && r.state.orders == book.orders && r.state.markets == book.markets
        && forall g :: Balance(r.state.balances, g) == Balance(book.balances, g) + (if g == base then f.qtyFilled else 0)
    ensures (&& f.orderId in book.orders && book.orders[f.orderId].direction == Ask
             && book.orders[f.orderId].marketId in book.markets) ==>
      var quote := Holding(book.orders[f.orderId].owner, book.markets[book.orders[f.orderId].marketId].quoteAssetDenom);
      var proceeds := AskProceeds(clearingPrice, f.qtyFilled);
      (0 < proceeds && rejects(quote, proceeds)) ==> r == Failed(book, CreditRejected(quote, proceeds))
    ensures r.Done? ==> f.orderId in book.orders && book.orders[f.orderId].marketId in book.markets
    ensures r.Done? ==> r.state.markets == book.markets
    ensures r.Done? ==> r.state.orders == ReduceOrder(book.orders, book.orders[f.orderId], f.qtyUnfilled)
    // a buyer receives the base quantity plus any refund of the price difference
    ensures r.Done? && book.orders[f.orderId].direction == Bid ==>
      CreditedTwice(book.balances, r.state.balances,
        Holding(book.orders[f.orderId].owner, book.markets[book.orders[f.orderId].marketId].baseAssetDenom),
        f.qtyFilled,
        Holding(book.orders[f.orderId].owner, book.markets[book.orders[f.orderId].marketId].quoteAssetDenom),
        BidRefund(book.orders[f.orderId].price, clearingPrice, f.qtyFilled))
    // a seller receives the (non-zero) truncated proceeds in the quote asset
    ensures r.Done? && book.orders[f.orderId].direction == Ask ==>
      && 0 < AskProceeds(clearingPrice, f.qtyFilled)
      && CreditedTwice(book.balances, r.state.balances,
        Holding(book.orders[f.orderId].owner, book.markets[book.orders[f.orderId].marketId].quoteAssetDenom),
        AskProceeds(clearingPrice, f.qtyFilled),
        Holding(book.orders[f.orderId].owner, book.markets[book.orders[f.orderId].marketId].quoteAssetDenom),
        0)
  {
    if f.orderId !in book.orders then Failed(book, OrderNotFound(f.orderId))
    else
      var ord := book.orders[f.orderId];
      if ord.marketId !in book.markets then Failed(book, MarketNotFound(ord.marketId))
      else
        var mkt := book.markets[ord.marketId];
        var credited :=
          if ord.direction == Bid then
            match Credit(book, Holding(ord.owner, mkt.baseAssetDenom), f.qtyFilled, rejects)
            case Failed(b, e) => Failed(b, e)
            case Done(b1) =>
              if clearingPrice < ord.price then
                var refund := NormalizeQuoteQuantity(ord.price - clearingPrice, f.qtyFilled);
                if !refund.tooSmall then Credit(b1, Holding(ord.owner, mkt.quoteAssetDenom), refund.amount, rejects)
                else Done(b1)  // refund too small to represent: logged, not fatal
              else Done(b1)
          else
            var proceeds := NormalizeQuoteQuantity(clearingPrice, f.qtyFilled);
            if !proceeds.tooSmall then Credit(book, Holding(ord.owner, mkt.quoteAssetDenom), proceeds.amount, rejects)
            else Failed(book, Panic("clearing price too small to represent"));
        match credited
        case Failed(b, e) => Failed(b, e)
        case Done(b2) => Done(b2.(orders := ReduceOrder(b2.orders, ord, f.qtyUnfilled)))
  }

  /** A fill together with the clearing price of the batch it came from. */
  datatype PricedFill = PricedFill(clearingPrice: nat, fill: Fill)

  /** All fills of all results, result by result, in each result's fill order. */
  function Flatten(results: seq<MatchResult>): (r: seq<PricedFill>)
    ensures |results| == 0 ==> r == []
  {
    if |results| == 0 then []
    else
      Priced(results[0].clearingPrice, results[0].fills) + Flatten(results[1..])
  }

  function Priced(clearingPrice: nat, fills: seq<Fill>): (r: seq<PricedFill>)
    ensures |r| == |fills|
    ensures forall i :: 0 <= i < |fills| ==> r[i] == PricedFill(clearingPrice, fills[i])
  {
    if |fills| == 0 then [] else [PricedFill(clearingPrice, fills[0])] + Priced(clearingPrice, fills[1..])
  }

  /** Settles fills in order; the first failing fill stops the rest. */
  function SettleFills(book: Book, rejects: CreditPolicy, fills: seq<PricedFill>): (r: Outcome<Book, ExecError>)
    ensures r.Done? ==> r.state.markets == book.markets
    decreases |fills|
  {
    if |fills| == 0 then Done(book)
    else
      match ExecuteFill(book, rejects, fills[0].clearingPrice, fills[0].fill)
      case Failed(b, e) => Failed(b, e)
      case Done(b1) => SettleFills(b1, rejects, fills[1..])
  }

  /** The fills before the first failing one are all settled, the failing
      fill's error is the one returned, and nothing after it runs. */
  lemma {:induction false} SettleStopsAtFirstError(book: Book, rejects: CreditPolicy, fills: seq<PricedFill>)
    requires SettleFills(book, rejects, fills).Failed?
    decreases |fills|
    ensures exists k :: (&& 0 <= k < |fills|
                         && SettleFills(book, rejects, fills[..k]).Done?
                         && ExecuteFill(SettleFills(book, rejects, fills[..k]).state, rejects,
                                        fills[k].clearingPrice, fills[k].fill)
                            == SettleFills(book, rejects, fills))
  {
    var first := ExecuteFill(book, rejects, fills[0].clearingPrice, fills[0].fill);
    if first.Failed? {
      assert fills[..0] == [];
      assert SettleFills(book, rejects, fills[..0]) == Done(book);
    } else {
      var b1 := first.state;
      var rest := fills[1..];
      SettleStopsAtFirstError(b1, rejects, rest);
      var k :| (&& 0 <= k < |rest|
                && SettleFills(b1, rejects, rest[..k]).Done?
                && ExecuteFill(SettleFills(b1, rejects, rest[..k]).state, rejects, rest[k].clearingPrice, rest[k].fill)
                   == SettleFills(b1, rejects, rest));
      assert fills[..k + 1][0] == fills[0];
      assert fills[..k + 1][1..] == rest[..k];
      assert SettleFills(book, rejects, fills[..k + 1]) == SettleFills(b1, rejects, rest[..k]);
      assert fills[k + 1] == rest[k];
    }
  }

  /** When settlement completes, every fill settled without error, one after
      the other. */
  lemma {:induction false} SettleDoneMeansEveryFillDone(book: Book, rejects: CreditPolicy, fills: seq<PricedFill>, k: nat)
    requires SettleFills(book, rejects, fills).Done?
    requires k < |fills|
    ensures SettleFills(book, rejects, fills[..k]).Done?
    ensures ExecuteFill(SettleFills(book, rejects, fills[..k]).state, rejects, fills[k].clearingPrice, fills[k].fill).Done?
    decreases k
  {
    var first := ExecuteFill(book, rejects, fills[0].clearingPrice, fills[0].fill);
    assert first.Done?;
    if k == 0 {
      assert fills[..0] == [];
    } else {
      SettleDoneMeansEveryFillDone(first.state, rejects, fills[1..], k - 1);
      assert fills[..k][0] == fills[0];
      assert fills[..k][1..] == fills[1..][..k - 1];
      assert fills[k] == fills[1..][k - 1];
    }
  }
}
